=== FILE: README.md ===
# vscode-dotnet-runtime acquisition core, modelled in Dafny

This project models the decision logic that the .NET install tool extension for
VS Code uses to acquire, find and track dotnet installs. Every operation is a pure
function. The file system, the network, spawned processes and the collaborators
whose code is outside the model are **oracles**: their answers are parameters of
the functions.

- `outcomes.dfy` (module `Outcomes`): `Option`, `Result` and the two kinds of
  value JavaScript code throws or rejects with. `Thrown` is either an `Error` object
  or a bare string. It also states what the templates `${e}` and `${e.message}`
  render for each.
- `host.dfy` (module `Host`): the platform, the executable name `dotnet` or
  `dotnet.exe`, and the path separator.
- `paths.dfy` (module `Paths`): paths as sequences of segments.
  - `dirname` drops the last segment.
  - `join` appends a segment.
  - `Under` says one path lies below another.
  - `RemoveUnder` is what `rimraf` leaves of a set of files.
- `text.dfy` (module `Text`): the JavaScript string operations the code relies on.
  - `split` and `.slice(-1)`, modelled as `Split` and `LastPiece`.
  - `trim`, using the ECMAScript white-space set.
  - `includes`.
  - String `<`, which compares character by character (`CodeUnitLess`).
- `acquisition_worker.dfy` (module `AcquisitionWorker`): the state machine of
  `DotnetCoreAcquisitionWorker`.
  - A `Worker` holds the two persisted ordered lists `installing` and `installed`.
  - It also holds the in-memory table of acquisition promises, keyed by version.
  - Every table entry carries a fresh `token`, so a replaced entry can be told apart
    from the old one.
  - The transitions are `UninstallAll`, `UninstallRuntime`, `AcquireCore`, `Acquire`,
    `AcquireStatus`, `AcquireGlobalCore` and `AcquireGlobalSdk`.
  - A transition returns the new worker, the outcome and the events it posted, in order.
- `acquisition_properties.dfy` (module `AcquisitionProperties`): lemmas relating
  these transitions. They cover the reset, the two partial-install recoveries,
  adoption of a pre-existing install, the fast path, a fresh install, the lack of
  deduplication in `acquire`, and the global pipeline.
- `path_finder.dfy` (module `PathFinder`): `DotnetPathFinder`.
  - Environment-variable priority.
  - Finder command and shell selection.
  - The "two directories up from the first runtime" correction of `getTruePath`.
  - The raw and real path lookups.
- `install_script.dfy` (module `InstallScript`): `InstallScriptAcquisitionWorker`.
  Fetch the install script, write it, and fall back to the copy on disk.
- `linux_versions.dfy` (module `LinuxVersions`): the distro-to-SDK table of
  `getLinuxSupportedDotnetSDKVersion`.

Modelling decisions the contracts depend on:

- **Sequential promise table.** The model is sequential: an `acquire` call has settled
  when it returns. Only fulfilled acquisitions keep their table entry, because a
  failure deletes the key. So an entry stores the path its promise resolved to.
- **`acquire` does not deduplicate.** The early return for a version already in the
  table is commented out in the code
  (`DotnetCoreAcquisitionWorker.ts` lines 124-131).
  - The disabled block would return the promise already in the table ("Memoize the
    promise"). The model follows the code as it stands.
  - Every call runs a new acquisition and stores a new entry under the version
    (`AcquisitionProperties.AcquireTwiceReplacesEntry`).
- **Stale snapshot in `acquireCore`.** The method reads `installed` once, before
  partial-install recovery. The adoption check and the fast-path check then use that
  snapshot together with fresh existence checks on disk. `AcquireCore` reproduces
  this.
  - The promise "a successful call leaves the version in `installed`" holds only
    when the version's install directory lies under the storage root.
  - Otherwise a reset deletes the list but not the executable, and the stale snapshot
    still takes the fast path.
- **Value semantics for the persisted store.** This is an assumption, recorded under
  "Left out": the snapshot is taken not to change with the later `update` calls.
- **Error text as written.** `Acquire` and `AcquireGlobalSdk` rethrow a failure with
  `${error.message}`, as the code does. A download that rejects with a bare string
  therefore reads "undefined"; one that rejects with an `Error` keeps its message.
  `RecordCorrected` and `AcquireGlobalSdkCorrected` are the
  corrected variants (see "Findings").
- **Order of table updates.** The synchronous part of `acquireCore` runs before
  `acquire` stores the new promise. That part is the table delete in
  `uninstallRuntime` or the reset in `uninstallAll`. So `Record` applies the core
  transition first and stores the entry afterwards.
- **32-bit Windows SDK path.** The global SDK path table matches the architecture
  string `x32` literally, as the code does.

## Model

| member | source | states |
|---|---|---|
| Host.DotnetExecutable | vscode-dotnet-runtime-library/src/Acquisition/DotnetCoreAcquisitionWorker.ts:44-45 | the executable is named `dotnet.exe` exactly on win32, and exactly `dotnet` everywhere else |
| Paths.Join | vscode-dotnet-runtime-library/src/Acquisition/DotnetCoreAcquisitionWorker.ts:95 | joining a non-empty segment adds one level whose dirname is the directory; joining the empty segment changes nothing |
| Paths.RemoveUnder | vscode-dotnet-runtime-library/src/Acquisition/DotnetCoreAcquisitionWorker.ts:281-284 | after removing a folder recursively, a file survives exactly when it does not lie under that folder |
| Text.LastPiece | vscode-dotnet-runtime-library/src/Acquisition/DotnetCoreAcquisitionWorker.ts:312 | `split('/').slice(-1)` is a separator-free suffix of the text that is either the whole text or preceded by the separator |
| Text.LastPieceAfterSeparator | vscode-dotnet-runtime-library/src/Acquisition/DotnetCoreAcquisitionWorker.ts:312 | the last piece of `a + '/' + b` is `b` whenever `b` has no separator |
| Text.SplitThenJoin | vscode-dotnet-runtime-library/src/Acquisition/DotnetPathFinder.ts:74 | joining the pieces of a split with the same separator gives back the text |
| Text.TrimEmptyIffWhitespace | vscode-dotnet-runtime-library/src/Acquisition/DotnetPathFinder.ts:74-75 | trimmed output is empty exactly when the output is all white space |
| Text.TrimIdempotent | vscode-dotnet-runtime-library/src/Acquisition/DotnetPathFinder.ts:74 | trimming twice is trimming once |
| Text.ContainsInfix | vscode-dotnet-runtime-library/src/Acquisition/DotnetPathFinder.ts:44 | `includes` holds of every text that has the fragment somewhere inside |
| Text.CodeUnitLessTransitive | vscode-dotnet-runtime-library/src/test/unit/LinuxTestUtility.ts:25-29 | string `<` is transitive |
| Text.CodeUnitLessTotal | vscode-dotnet-runtime-library/src/test/unit/LinuxTestUtility.ts:25-29 | of two different strings, one is less than the other |
| Text.NotLessIsAtLeast | vscode-dotnet-runtime-library/src/test/unit/LinuxTestUtility.ts:29-37 | failing `a < b` means `b <= a`, which is what the else branches rely on |
| AcquisitionWorker.NewWorker | vscode-dotnet-runtime-library/src/Acquisition/DotnetCoreAcquisitionWorker.ts:43-48 | a new worker starts with an empty promise table and takes both persisted lists as the store holds them, so a partial install left by an earlier run is still seen |
| AcquisitionWorker.DotnetPath | vscode-dotnet-runtime-library/src/Acquisition/DotnetCoreAcquisitionWorker.ts:94-95 | the executable path is the file `dotnet[.exe]` directly inside the version's install directory |
| AcquisitionWorker.IndexOf | vscode-dotnet-runtime-library/src/Acquisition/DotnetCoreAcquisitionWorker.ts:268 | `indexOf` is -1 exactly when the version is absent, else the position of its first occurrence |
| AcquisitionWorker.AddVersion | vscode-dotnet-runtime-library/src/Acquisition/DotnetCoreAcquisitionWorker.ts:275-279 | the version is appended at the end and the earlier entries stay in order, so its count goes up by exactly one; `RemoveAfterAdd` relates it to removal |
| AcquisitionWorker.RemoveVersion | vscode-dotnet-runtime-library/src/Acquisition/DotnetCoreAcquisitionWorker.ts:266-273 | an absent version leaves the list alone; otherwise the list loses exactly one occurrence of the version and nothing else |
| AcquisitionWorker.RemoveVersionCutsFirstOccurrence | vscode-dotnet-runtime-library/src/Acquisition/DotnetCoreAcquisitionWorker.ts:268-270 | the occurrence removed is the first one, and the entries before and after it keep their order |
| AcquisitionWorker.RemoveAfterAdd | vscode-dotnet-runtime-library/src/Acquisition/DotnetCoreAcquisitionWorker.ts:266-279 | appending then removing a version cancels out only if it was absent; if it was listed, the earlier copy goes and the new one stays |
| AcquisitionWorker.UninstallAll | vscode-dotnet-runtime-library/src/Acquisition/DotnetCoreAcquisitionWorker.ts:50-61 | the reset keeps the worker valid, so later tokens stay fresh; what it forgets is stated by `UninstallAllForgetsEverything` |
| AcquisitionWorker.UninstallRuntime | vscode-dotnet-runtime-library/src/Acquisition/DotnetCoreAcquisitionWorker.ts:256-264 | only the version's table key goes, and one occurrence of it from each list; other entries and counts are untouched |
| AcquisitionWorker.Recover | vscode-dotnet-runtime-library/src/Acquisition/DotnetCoreAcquisitionWorker.ts:169-179 | without a partial install nothing happens; otherwise files are only removed, and the version's executable is gone after a runtime recovery or a reset that covers it |
| AcquisitionWorker.AdoptEach | vscode-dotnet-runtime-library/src/Acquisition/DotnetCoreAcquisitionWorker.ts:292-296 | every listed folder name is appended, in order, to both the persisted list and the snapshot, with one detection event per name |
| AcquisitionWorker.ManagePreinstalledVersion | vscode-dotnet-runtime-library/src/Acquisition/DotnetCoreAcquisitionWorker.ts:286-301 | a failed listing changes nothing and posts one error; a listing appends every name |
| AcquisitionWorker.Install | vscode-dotnet-runtime-library/src/Acquisition/DotnetCoreAcquisitionWorker.ts:196-215 | success exactly when the invoker and validator accept; success moves the version to the end of `installed`; failure leaves the `installing` marker, and an invoker failure reads `Installation failed: ...` |
| AcquisitionWorker.AcquireCore | vscode-dotnet-runtime-library/src/Acquisition/DotnetCoreAcquisitionWorker.ts:166-216 | success returns `installDir(version)/dotnet[.exe]` and, for an install under the storage root, leaves the version installed; a failed install leaves it installing; without a partial install the table is untouched |
| AcquisitionWorker.AcquisitionFailureMessage | vscode-dotnet-runtime-library/src/Acquisition/DotnetCoreAcquisitionWorker.ts:139-149 | corrected: the rethrown message is the prefix followed by the cause the failure carried |
| AcquisitionWorker.AcquisitionFailureMessageAsWritten | vscode-dotnet-runtime-library/src/Acquisition/DotnetCoreAcquisitionWorker.ts:139-149 | as written: the message starts with the prefix; for an `Error` object it agrees with the corrected one; for any rejected string it is the prefix followed by `undefined` |
| AcquisitionWorker.AsWrittenLosesDownloadReason | vscode-dotnet-runtime-library/src/Acquisition/DotnetCoreAcquisitionWorker.ts:139-142 | a download rejected with a reason string is reported as `undefined`, so two different download failures read the same |
| AcquisitionWorker.FailureMessageKeepsReason | vscode-dotnet-runtime-library/src/Acquisition/DotnetCoreAcquisitionWorker.ts:146-149 | with the corrected message, two failures read the same exactly when their causes are the same |
| AcquisitionWorker.Record | vscode-dotnet-runtime-library/src/Acquisition/DotnetCoreAcquisitionWorker.ts:135-153 | a fresh entry is stored under the version on success and the key is deleted on failure; other keys and both lists are untouched; the error is the prefix followed by the error's message, or by `undefined` for a rejected string |
| AcquisitionWorker.RecordCorrected | vscode-dotnet-runtime-library/src/Acquisition/DotnetCoreAcquisitionWorker.ts:139-149 | corrected: the same worker, events and success as `Record`, but the error carries the cause for a string as well; for an `Error` object it is exactly `Record` |
| AcquisitionWorker.Acquire | vscode-dotnet-runtime-library/src/Acquisition/DotnetCoreAcquisitionWorker.ts:123-155 | the table holds the version exactly when the call succeeded, under a new entry different from any earlier one; the path is the version's executable |
| AcquisitionWorker.AcquireStatus | vscode-dotnet-runtime-library/src/Acquisition/DotnetCoreAcquisitionWorker.ts:86-114 | never starts an install; answers from the table first; otherwise a path exactly when the version is installed, after adoption for SDK requests, and its executable exists; adoption appends every listed `sdk/` folder, a failed listing leaves `installed` alone, and without adoption nothing changes |
| AcquisitionWorker.GlobalSdkRoot | vscode-dotnet-runtime-library/src/Acquisition/DotnetCoreAcquisitionWorker.ts:386-414 | there is a root only on win32 for `x32` and `x64`, and on darwin always |
| AcquisitionWorker.GloballyInstalledSdkPath | vscode-dotnet-runtime-library/src/Acquisition/DotnetCoreAcquisitionWorker.ts:386-414 | the path is the version folder inside the root, or the empty path where there is no root |
| AcquisitionWorker.GlobalSdkPathTable | vscode-dotnet-runtime-library/src/Acquisition/DotnetCoreAcquisitionWorker.ts:388-413 | the table row by row: the two Windows program folders, the two macOS folders, and the empty path elsewhere |
| AcquisitionWorker.InstallerFileName | vscode-dotnet-runtime-library/src/Acquisition/DotnetCoreAcquisitionWorker.ts:312 | the installer's name is the separator-free tail of its URL after the last `/` |
| AcquisitionWorker.InstallerPath | vscode-dotnet-runtime-library/src/Acquisition/DotnetCoreAcquisitionWorker.ts:310-312 | the installer is saved directly inside the `installers` folder under its own name |
| AcquisitionWorker.AcquireGlobalCore | vscode-dotnet-runtime-library/src/Acquisition/DotnetCoreAcquisitionWorker.ts:218-254 | a conflict throws before any change; a failed download rejects with the value the download rejected with, a string or an `Error`, and changes nothing; otherwise the version moves to `installed` and the path follows the SDK table |
| AcquisitionWorker.AcquireGlobalSdk | vscode-dotnet-runtime-library/src/Acquisition/DotnetCoreAcquisitionWorker.ts:72-75 | keyed by the full version: a conflict leaves both lists alone and fails with the prefixed conflict message; a failed download leaves no entry and fails with the prefix followed by `undefined` when it rejected with a string, or by the error's message when it rejected with an `Error`; success stores a fresh entry |
| AcquisitionWorker.AcquireGlobalSdkCorrected | vscode-dotnet-runtime-library/src/Acquisition/DotnetCoreAcquisitionWorker.ts:139-142 | corrected: the same worker and success as `AcquireGlobalSdk`, but a failed download reports the prefix followed by its rejection reason, string or `Error` alike |
| AcquisitionWorker.GlobalDownloadFailureMessages | vscode-dotnet-runtime-library/src/Acquisition/DotnetCoreAcquisitionWorker.ts:139-142 | two downloads failing for different reasons give the same result as written and different messages once corrected |
| AcquisitionProperties.UninstallAllForgetsEverything | vscode-dotnet-runtime-library/src/Acquisition/DotnetCoreAcquisitionWorker.ts:50-61 | after the reset no version is in either list or the table, a second reset changes nothing, and runtime status reports nothing |
| AcquisitionProperties.PartialRuntimeRecovery | vscode-dotnet-runtime-library/src/Acquisition/DotnetCoreAcquisitionWorker.ts:169-175 | a runtime request for a partial install deletes the version's folder and key, drops one occurrence from each list, then reinstalls |
| AcquisitionProperties.PartialRuntimeRecoveryKeepsOthers | vscode-dotnet-runtime-library/src/Acquisition/DotnetCoreAcquisitionWorker.ts:256-264 | that recovery keeps the count of every other version in both lists |
| AcquisitionProperties.PartialSdkRecovery | vscode-dotnet-runtime-library/src/Acquisition/DotnetCoreAcquisitionWorker.ts:176-179 | an SDK request for a partial install resets everything first, so afterwards only this version is known |
| AcquisitionProperties.FastPath | vscode-dotnet-runtime-library/src/Acquisition/DotnetCoreAcquisitionWorker.ts:189-194 | an installed version with its executable present returns that path after validation, and nothing changes |
| AcquisitionProperties.AdoptPreinstalled | vscode-dotnet-runtime-library/src/Acquisition/DotnetCoreAcquisitionWorker.ts:184-194 | with nothing installed and the executable present, every `sdk/` folder is adopted in order; if the version is among them, the fast path follows and nothing is installed: the executable's path with `AlreadyInstalled` last once validation passes, the validator's error otherwise |
| AcquisitionProperties.AdoptedFastPathShape | vscode-dotnet-runtime-library/src/Acquisition/DotnetCoreAcquisitionWorker.ts:183-192 | the whole transition of that case: the adopted worker and events, then the validator's error or the executable's path followed by `AlreadyInstalled` |
| AcquisitionProperties.AdoptPreinstalledThenInstall | vscode-dotnet-runtime-library/src/Acquisition/DotnetCoreAcquisitionWorker.ts:184-215 | if the version is not among the adopted folders, it is installed after them |
| AcquisitionProperties.AdoptionListingFails | vscode-dotnet-runtime-library/src/Acquisition/DotnetCoreAcquisitionWorker.ts:297-300 | a failed `sdk/` listing posts an error, and the request goes on to a fresh install |
| AcquisitionProperties.FreshInstall | vscode-dotnet-runtime-library/src/Acquisition/DotnetCoreAcquisitionWorker.ts:196-215 | success appends the version to `installed` with `installing` as before; an invoker failure keeps the marker and reads `Installation failed: ...` |
| AcquisitionProperties.AcquireTwiceReplacesEntry | vscode-dotnet-runtime-library/src/Acquisition/DotnetCoreAcquisitionWorker.ts:124-152 | a second `acquire` of the same version runs again, and its entry replaces the first |
| AcquisitionProperties.GlobalIgnoresInstallerExit | vscode-dotnet-runtime-library/src/Acquisition/DotnetCoreAcquisitionWorker.ts:238-242 | the global pipeline's outcome does not depend on what the installer returned |
| AcquisitionProperties.GlobalMovesVersion | vscode-dotnet-runtime-library/src/Acquisition/DotnetCoreAcquisitionWorker.ts:234-251 | a global install of a version not marked installing leaves `installing` exactly as it was and appends to `installed` |
| PathFinder.FinderCommand | vscode-dotnet-runtime-library/src/Acquisition/DotnetPathFinder.ts:20 | `where` exactly on win32, `which` otherwise |
| PathFinder.FindDotnetRootPath | vscode-dotnet-runtime-library/src/Acquisition/DotnetPathFinder.ts:41-58 | the answer is one of the two variables; `DOTNET_ROOT_X64` only under x64 emulation on arm; nothing exactly when neither applicable variable is set |
| PathFinder.FindDotnetRootPathIsPriorityOrder | vscode-dotnet-runtime-library/src/Acquisition/DotnetPathFinder.ts:43-57 | the lookup is the first set variable of the priority list |
| PathFinder.EmulationPrefersX64Root | vscode-dotnet-runtime-library/src/Acquisition/DotnetPathFinder.ts:44-51 | asking for x64 on an OS arch containing `arm`, a set `DOTNET_ROOT_X64` always wins |
| PathFinder.ShellOption | vscode-dotnet-runtime-library/src/Acquisition/DotnetPathFinder.ts:72 | a shell only off win32 when asked for; `/bin/bash` exactly when `SHELL` is `/bin/bash`, else `/bin/sh` |
| PathFinder.ParsePath | vscode-dotnet-runtime-library/src/Acquisition/DotnetPathFinder.ts:74 | the text is cut at every separator: no segment contains one, and the segments join back to the text |
| PathFinder.GetTruePath | vscode-dotnet-runtime-library/src/Acquisition/DotnetPathFinder.ts:99-116 | an empty runtime listing keeps the tentative path; otherwise the executable sits in the directory two levels above the first runtime |
| PathFinder.GetTruePathFollowsInstallLayout | vscode-dotnet-runtime-library/src/Acquisition/DotnetPathFinder.ts:104-112 | a first runtime at `<root>/shared/<name>` gives `<root>/dotnet[.exe]` |
| PathFinder.GetTruePathDependsOnFirstRuntimeOnly | vscode-dotnet-runtime-library/src/Acquisition/DotnetPathFinder.ts:101-113 | with a non-empty listing, the tentative path and the later runtimes do not matter |
| PathFinder.FindRawPathEnvironmentSetting | vscode-dotnet-runtime-library/src/Acquisition/DotnetPathFinder.ts:70-80 | nothing exactly when no output or only white space; otherwise the trimmed output, or the executable in the directory two levels above the first listed runtime |
| PathFinder.FindRealPathEnvironmentSetting | vscode-dotnet-runtime-library/src/Acquisition/DotnetPathFinder.ts:89-97 | not found exactly when the raw lookup finds nothing; otherwise the resolved path, corrected through the runtime listing; a failing `realpath` is reported |
| InstallScript.ScriptFileEnding | vscode-dotnet-runtime-library/src/Acquisition/InstallScriptAcquisitionWorker.ts:35 | `ps1` exactly on win32, `sh` otherwise |
| InstallScript.NewScriptWorker | vscode-dotnet-runtime-library/src/Acquisition/InstallScriptAcquisitionWorker.ts:34-40 | the script is written to `install scripts/dotnet-install.<ending>` and fetched from the URL with the same ending |
| InstallScript.UrlNamesTheScriptFile | vscode-dotnet-runtime-library/src/Acquisition/InstallScriptAcquisitionWorker.ts:29-38 | the last piece of the script URL is the script file's name |
| InstallScript.FallbackScriptPath | vscode-dotnet-runtime-library/src/Acquisition/InstallScriptAcquisitionWorker.ts:75-77 | the fallback is the very file the fetched script is written to |
| InstallScript.GetDotnetInstallScriptPath | vscode-dotnet-runtime-library/src/Acquisition/InstallScriptAcquisitionWorker.ts:42-73 | always the script path on success; failure exactly when no script was written and no fallback exists; Completed exactly on a written script; on any failure the first event carries the thrown value and comes before FallbackUsed; the error message names that value |
| InstallScript.ScriptFailure | vscode-dotnet-runtime-library/src/Acquisition/InstallScriptAcquisitionWorker.ts:43-53 | the `try` block fails exactly when no non-empty script was written; the failure is the fetch's own error, "Unable to get script path." for a missing or empty script, or the writer's error |
| InstallScript.EmptyScriptIsAFailure | vscode-dotnet-runtime-library/src/Acquisition/InstallScriptAcquisitionWorker.ts:46-50 | an absent or empty script is handled like a thrown "Unable to get script path." |
| InstallScript.FailureMessageNamesCause | vscode-dotnet-runtime-library/src/Acquisition/InstallScriptAcquisitionWorker.ts:46-71 | without a fallback, a fetch that threw, a missing or empty script and a write that threw each end in one error event carrying that cause and the message prefix followed by the rendered cause |
| LinuxVersions.LatestLinuxDotnet | vscode-dotnet-runtime-library/src/test/unit/LinuxTestUtility.ts:54-57 | the latest SDK is one the table knows, and no known SDK sorts after it |
| LinuxVersions.SupportedSdkVersion | vscode-dotnet-runtime-library/src/test/unit/LinuxTestUtility.ts:23-51 | the answer is always one of 6.0.100, 7.0.100, 8.0.100 and 9.0.100 |
| LinuxVersions.GetLinuxSupportedDotnetSdkVersion | vscode-dotnet-runtime-library/src/test/unit/LinuxTestUtility.ts:19-52 | a supplied pair is used as it is, and the probe only when none is supplied |
| LinuxVersions.UbuntuBands | vscode-dotnet-runtime-library/src/test/unit/LinuxTestUtility.ts:23-38 | Ubuntu below 22.04 gives 6.0.100, from 22.04 to below 24.04 gives 9.0.100, and from 24.04 on gives 8.0.100 |
| LinuxVersions.RedHatBands | vscode-dotnet-runtime-library/src/test/unit/LinuxTestUtility.ts:39-50 | Red Hat below 8.0 gives 7.0.100, and from 8.0 on gives 9.0.100 |
| LinuxVersions.OtherDistroGetsLatest | vscode-dotnet-runtime-library/src/test/unit/LinuxTestUtility.ts:51-57 | any other distribution gets 9.0.100 |
| LinuxVersions.TableExamples | vscode-dotnet-runtime-library/src/test/unit/LinuxTestUtility.ts:23-50 | Ubuntu 20.04, 23.04 and 24.04 and Red Hat 7.9 and 9.0 map as the table intends |
| LinuxVersions.RedHatTenIsOldestBand | vscode-dotnet-runtime-library/src/test/unit/LinuxTestUtility.ts:41-44 | string order puts "10.0" before "8.0", so Red Hat 10.0 maps to 7.0.100 |
| LinuxVersions.UbuntuNotMonotonic | vscode-dotnet-runtime-library/src/test/unit/LinuxTestUtility.ts:29-37 | a later Ubuntu release, 24.04, maps to an older SDK than 23.04 |

## Left out

- HTTP download (`DotnetCoreAcquisitionWorker.ts` lines 317-360): network and stream I/O. Only its outcome is modelled: success, or the value it rejects with (`GlobalProbe.download`). That value is a string for the rejections the code writes out, and an `Error` object when `mkdirSync` or `https.get` throws inside the promise executor.
- `isElevated` and `executeInstaller` (lines 366-384, 447-479): they spawn processes. The installer's result is an oracle string, and the pipeline ignores it.
- `rimraf` and `wipeDirectory` (lines 281-284, 420-431): file-system side effects. `rimraf` is modelled only by its effect on the set of executables on disk. `wipeDirectory` touches only the installer download folder, which no modelled decision reads. Errors it throws inside callbacks never reach `acquire`.
- Asynchronous scheduling: interleaved `acquire` calls are not modelled. A table entry is created settled. Pending promises and the resolution of a pending entry inside `acquireStatus` are left out.
- Timeout values and the install context handed to the invoker: the invoker is an oracle that succeeds or rejects with a reason.
- Collaborators outside the model are parameters: the installation validator, the install-directory provider, `getOSArch`, `realpathSync`, the runtime listing of `DotnetConditionValidator`, `GlobalSDKInstallerResolver`, `LinuxVersionResolver`, the caching `WebRequestWorker` and `FileUtilities.writeFileOntoDisk`.
- The persisted store (`IExtensionState`) is not part of this model. Its `get` is assumed to return a copy. If it returned the stored array itself, adoption would append every name twice to that array, once for each `push`. The stale snapshot in `acquireCore` and the adoption result in `acquireStatus` depend on this assumption.
- `EnvironmentVariableIsDefined` is taken as "the variable is set", and `getDotnetExecutable` as the same name the worker builds at lines 44-45. Their definitions are not part of this model.
- The distribution keys are distinct constructors. Their string values are not part of this model.
- Event payloads beyond what decisions depend on: the preinstall detection error carries no error value.
- `path.join` normalisation (`.`, `..`, repeated separators, the trailing backslash of the Windows SDK roots) and drive-letter handling: paths are plain segment sequences.
- `Debugging.log` calls and the `executor !== undefined` test in `findDotnetRootPath`. The constructor always assigns an executor (line 24).
- Text.CodeUnitLess: compares Unicode scalar values, not UTF-16 code units. The two orders differ only for characters outside the Basic Multilingual Plane.
- `IssueReporter.ts`: formats a bug report URL through helpers not in the model.
- `IFileUtilities.ts`: signatures only.
- `DotnetDistroSupportStatus.ts`: an enum with no behaviour.
- `webpack.config.js`: build configuration.

## Findings

| source | as written | input that shows it | evidently intended | confidence | as-written member | corrected member |
|---|---|---|---|---|---|---|
| vscode-dotnet-runtime-library/src/Acquisition/DotnetCoreAcquisitionWorker.ts:139-142 | the `catch` rethrows with `${error.message}`, but the global download rejects with a bare string (lines 332, 339, 351, 356), which has no `message` property | a download answered with status 404 rejects with "Server responded with 404: Not Found", and `acquire` reports ".NET Acquisition Failed: undefined", the same message as for "File already exists" | the rethrown message carries the rejection reason | medium, not executed | AcquisitionWorker.AcquisitionFailureMessageAsWritten, AcquisitionWorker.Record, AcquisitionWorker.AcquireGlobalSdk, AcquisitionWorker.AsWrittenLosesDownloadReason | AcquisitionWorker.AcquisitionFailureMessage, AcquisitionWorker.RecordCorrected, AcquisitionWorker.AcquireGlobalSdkCorrected, AcquisitionWorker.FailureMessageKeepsReason, AcquisitionWorker.GlobalDownloadFailureMessages |

=== FILE: acquisition_properties.dfy ===
/** Properties of the acquisition state machine that relate its transitions: the reset
    of `uninstallAll`, the two partial-install recoveries, adoption of a pre-existing
    install, the fast path, a fresh install, and the global pipeline. */
module AcquisitionProperties {
  import opened Outcomes
  import opened Paths
  import opened AcquisitionWorker

  /** After `uninstallAll` the worker remembers no version at all, a second reset changes
      nothing, and a runtime status query reports nothing. */
  lemma UninstallAllForgetsEverything(
    ctx: Context, w: Worker, version: string, executables: set<Path>, listing: Option<seq<string>>)
    ensures var u := UninstallAll(ctx, w).worker;
      && version !in u.installing && version !in u.installed && version !in u.promises
      && UninstallAll(ctx, u).worker == u
      && AcquireStatus(ctx, u, version, true, executables, listing).result.None?
  {
  }

  /** A runtime request for a version left in `installing` deletes that version's folder,
      drops its table entry and one occurrence from each list, and then installs afresh:
      the executable it would have found is gone. Other versions keep their entries. */
  lemma PartialRuntimeRecovery(ctx: Context, w: Worker, version: string, probe: LocalProbe)
    requires version in w.installing
    ensures var r := AcquireCore(ctx, w, version, true, probe);
      && r.events == [PartialInstallation(version), Deletion(ctx.installDir(version)), AcquisitionStarted(version)]
      && r.worker.promises == w.promises - {version}
      && (r.outcome.Err? ==>
            r.worker.installing == RemoveVersion(w.installing, version) + [version]
            && r.worker.installed == RemoveVersion(w.installed, version))
      && (r.outcome.Ok? ==>
            multiset(r.worker.installing) == multiset(w.installing) - multiset{version}
            && r.worker.installed == RemoveVersion(w.installed, version) + [version])
  {
  }

  /** The runtime recovery leaves every other version's occurrences in both lists alone. */
  lemma PartialRuntimeRecoveryKeepsOthers(ctx: Context, w: Worker, version: string, probe: LocalProbe, other: string)
    requires version in w.installing && other != version
    ensures var r := AcquireCore(ctx, w, version, true, probe);
      && multiset(r.worker.installing)[other] == multiset(w.installing)[other]
      && multiset(r.worker.installed)[other] == multiset(w.installed)[other]
  {
    PartialRuntimeRecovery(ctx, w, version, probe);
    CountsOfOthers(w.installing, RemoveVersion(w.installing, version), version, other);
    CountsOfOthers(w.installed, RemoveVersion(w.installed, version), version, other);
  }

  /** Removing one occurrence of a version, and appending it again, leaves the count of
      every other version alone. */
  lemma CountsOfOthers(list: seq<string>, rest: seq<string>, version: string, other: string)
    requires multiset(rest) == multiset(list) - multiset{version}
    requires other != version
    ensures multiset(rest)[other] == multiset(list)[other]
    ensures multiset(rest + [version])[other] == multiset(list)[other]
  {
    assert multiset(rest + [version]) == multiset(rest) + multiset{version};
  }

  /** An SDK request for a version left in `installing` resets everything first, so
      afterwards the worker knows of this version only. */
  lemma PartialSdkRecovery(ctx: Context, w: Worker, version: string, probe: LocalProbe)
    requires version in w.installing
    requires Under(ctx.installDir(version), ctx.storagePath)
    ensures var r := AcquireCore(ctx, w, version, false, probe);
      && r.events == [PartialInstallation(version), UninstallAllStarted, Deletion(ctx.storagePath),
                      UninstallAllCompleted, AcquisitionStarted(version)]
      && r.worker.promises == map[]
      && r.worker.installing == (if r.outcome.Ok? then [] else [version])
      && r.worker.installed == (if r.outcome.Ok? then [version] else [])
  {
    RemoveAfterAdd([], version);
  }

  /** With the version installed and its executable present, the call returns the
      executable's path (once the validator accepts it) and changes neither list. */
  lemma FastPath(ctx: Context, w: Worker, version: string, isRuntime: bool, probe: LocalProbe)
    requires version !in w.installing && version in w.installed
    requires DotnetPath(ctx, version) in probe.executables
    ensures var r := AcquireCore(ctx, w, version, isRuntime, probe);
      && r.worker == w
      && (probe.validation.None? ==> r.outcome == Ok(DotnetPath(ctx, version)) && r.events == [AlreadyInstalled(version)])
      && (probe.validation.Some? ==> r.outcome == Err(probe.validation.value) && r.events == [])
  {
  }

  /** With nothing recorded as installed but the executable already on disk, every `sdk/`
      sub-folder is adopted into `installed`, in listing order. If the requested version
      was among them, the call takes the fast path and installs nothing. */
  lemma AdoptPreinstalled(ctx: Context, w: Worker, version: string, isRuntime: bool, probe: LocalProbe, names: seq<string>)
    requires version !in w.installing && w.installed == []
    requires DotnetPath(ctx, version) in probe.executables
    requires probe.sdkListing == Some(names)
    requires version in names
    ensures var r := AcquireCore(ctx, w, version, isRuntime, probe);
      && r.worker == w.(installed := names) && AcquisitionStarted(version) !in r.events
      && (probe.validation.None? ==> r.outcome == Ok(DotnetPath(ctx, version)))
      && (probe.validation.None? ==> r.events[|r.events| - 1] == AlreadyInstalled(version))
      && (probe.validation.Some? ==> r.outcome == Err(probe.validation.value))
  {
    var adopted := ManagePreinstalledVersion(w, [], probe.sdkListing);
    AdoptedFastPathShape(ctx, w, version, isRuntime, probe, names);
    assert adopted.worker == w.(installed := names);
    assert AcquisitionStarted(version) !in adopted.events;
  }

  /** The whole transition of an adopted fast path, with the adoption left unevaluated. */
  lemma AdoptedFastPathShape(ctx: Context, w: Worker, version: string, isRuntime: bool, probe: LocalProbe, names: seq<string>)
    requires version !in w.installing && w.installed == []
    requires DotnetPath(ctx, version) in probe.executables
    requires probe.sdkListing == Some(names)
    requires version in names
    ensures var adopted := ManagePreinstalledVersion(w, [], probe.sdkListing);
      AcquireCore(ctx, w, version, isRuntime, probe)
        == if probe.validation.Some? then Transition(adopted.worker, Err(probe.validation.value), adopted.events)
           else Transition(adopted.worker, Ok(DotnetPath(ctx, version)), adopted.events + [AlreadyInstalled(version)])
  {
    var rec := Recover(ctx, w, version, isRuntime, probe.executables);
    assert rec == Recovery(w, probe.executables, []);
    var adopted := ManagePreinstalledVersion(w, [], probe.sdkListing);
    assert adopted.snapshot == names;
    assert version in adopted.snapshot && DotnetPath(ctx, version) in rec.present;
    assert rec.events + adopted.events == adopted.events;
  }

  /** The same adoption when the requested version is not among the folders: it is then
      installed after them. */
  lemma AdoptPreinstalledThenInstall(
    ctx: Context, w: Worker, version: string, isRuntime: bool, probe: LocalProbe, names: seq<string>)
    requires version !in w.installing && w.installed == []
    requires DotnetPath(ctx, version) in probe.executables
    requires probe.sdkListing == Some(names)
    requires version !in names
    ensures var r := AcquireCore(ctx, w, version, isRuntime, probe);
      && AcquisitionStarted(version) in r.events
      && r.worker.installed == names + (if r.outcome.Ok? then [version] else [])
  {
    assert Recover(ctx, w, version, isRuntime, probe.executables) == Recovery(w, probe.executables, []);
    var adopted := ManagePreinstalledVersion(w, [], probe.sdkListing);
    assert adopted.worker == w.(installed := names) && adopted.snapshot == names;
    var installed := Install(adopted.worker, version, DotnetPath(ctx, version), probe);
    var r := AcquireCore(ctx, w, version, isRuntime, probe);
    assert r.worker == installed.worker && r.outcome == installed.outcome;
    assert r.events == adopted.events + [AcquisitionStarted(version)];
    assert r.events[|r.events| - 1] == AcquisitionStarted(version);
    if installed.outcome.Ok? {
      assert r.worker.installed == names + [version];
    } else {
      assert r.worker.installed == names;
    }
  }

  /** When listing the `sdk/` folder fails, adoption posts an error and the request goes on
      to a fresh install with the lists as they were. */
  lemma AdoptionListingFails(ctx: Context, w: Worker, version: string, isRuntime: bool, probe: LocalProbe)
    requires version !in w.installing && w.installed == []
    requires DotnetPath(ctx, version) in probe.executables
    requires probe.sdkListing.None?
    ensures var r := AcquireCore(ctx, w, version, isRuntime, probe);
      && r.events == [PreinstallDetectionError, AcquisitionStarted(version)]
      && r.worker.installed == (if r.outcome.Ok? then [version] else [])
  {
  }

  /** A fresh install: the version is appended to `installing`; on success it moves to the
      end of `installed` and `installing` is as it was; on an invoker failure the error is
      "Installation failed: ..." and the marker stays. */
  lemma FreshInstall(ctx: Context, w: Worker, version: string, isRuntime: bool, probe: LocalProbe)
    requires version !in w.installing
    requires DotnetPath(ctx, version) in probe.executables ==> version !in w.installed && w.installed != []
    ensures var r := AcquireCore(ctx, w, version, isRuntime, probe);
      && r.events == [AcquisitionStarted(version)]
      && (probe.invoker.Some? ==>
            r.worker == w.(installing := w.installing + [version])
            && r.outcome == Err(NewError("Installation failed: " + probe.invoker.value)))
      && (r.outcome.Ok? ==> r.worker == w.(installed := w.installed + [version]))
  {
    RemoveAfterAdd(w.installing, version);
  }

  /** `acquire` does not deduplicate: a second call for a version that is already in the
      table runs a new acquisition and its entry replaces the first one. */
  lemma AcquireTwiceReplacesEntry(ctx: Context, w: Worker, version: string, isRuntime: bool, p1: LocalProbe, p2: LocalProbe)
    requires w.Valid()
    ensures var r1 := Acquire(ctx, w, version, isRuntime, p1);
      var r2 := Acquire(ctx, r1.worker, version, isRuntime, p2);
      r1.outcome.Ok? && r2.outcome.Ok? ==>
        r2.worker.promises[version].token == r1.worker.promises[version].token + 1
  {
  }

  /** The global pipeline ignores what the installer returned. */
  lemma GlobalIgnoresInstallerExit(ctx: Context, w: Worker, probe: GlobalProbe, exit: string)
    ensures AcquireGlobalCore(ctx, w, probe.(installerExit := exit)) == AcquireGlobalCore(ctx, w, probe)
  {
  }

  /** A global install of a version not marked as installing leaves `installing` exactly as
      it was and appends the version to `installed`. */
  lemma GlobalMovesVersion(ctx: Context, w: Worker, probe: GlobalProbe)
    requires probe.conflict == "" && probe.download.None?
    requires probe.fullVersion !in w.installing
    ensures AcquireGlobalCore(ctx, w, probe).worker == w.(installed := w.installed + [probe.fullVersion])
  {
    RemoveAfterAdd(w.installing, probe.fullVersion);
  }
}

=== FILE: acquisition_worker.dfy ===
/** The acquisition state machine of `DotnetCoreAcquisitionWorker`: two persisted ordered
    lists of versions (`installing`, `installed`) plus the in-memory table of acquisition
    promises keyed by version. The file system, the install-script invoker, the
    installation validator and the global installer resolver are oracles: their answers
    are inputs of the transitions. */
module AcquisitionWorker {
  import opened Outcomes
  import opened Host
  import opened Paths
  import opened Text

  /** Notifications posted to the event stream. */
  datatype Event =
    | UninstallAllStarted
    | UninstallAllCompleted
    | Deletion(folder: Path)
    | PartialInstallation(version: string)
    | PreinstallDetected(version: string)
    | PreinstallDetectionError
    | AlreadyInstalled(version: string)
    | AcquisitionStarted(version: string)
    | StatusResolved(version: string)
    | StatusUndefined(version: string)

  /** The fixed collaborators of one worker: the platform, the root of all managed
      installs, the install-directory provider and the directory the library runs from. */
  datatype Context = Context(
    platform: Platform,
    storagePath: Path,
    installDir: string -> Path,
    moduleDir: Path)

  /** A promise in the table. In this sequential model a promise is settled when its
      `acquire` call returns, and only fulfilled promises stay in the table, so an entry
      carries the path it resolved to. `token` tells promises apart. */
  datatype Acquisition = Acquisition(token: nat, path: Path)

  datatype Worker = Worker(
    installing: seq<string>,
    installed: seq<string>,
    promises: map<string, Acquisition>,
    nextToken: nat)
  {
    /** Every promise in the table was created before `nextToken` was handed out. */
    predicate Valid() {
      forall v :: v in promises ==> promises[v].token < nextToken
    }
  }

  /** The constructor: a new worker starts with an empty promise table, while the two
      persisted lists are whatever the store holds from earlier runs. */
  function NewWorker(storedInstalling: seq<string>, storedInstalled: seq<string>): (w: Worker)
    ensures w.promises == map[]
    ensures w.installing == storedInstalling && w.installed == storedInstalled
    ensures w.Valid()
  {
    Worker(storedInstalling, storedInstalled, map[], 0)
  }

  datatype Effect = Effect(worker: Worker, events: seq<Event>)

  datatype Transition<+T, +E> = Transition(worker: Worker, outcome: Result<T, E>, events: seq<Event>)

  /** `<installDir(version)>/dotnet[.exe]` */
  function DotnetPath(ctx: Context, version: string): (p: Path)
    ensures Under(p, ctx.installDir(version))
    ensures Dirname(p) == ctx.installDir(version)
    ensures |p| >= 1 && p[|p| - 1] == DotnetExecutable(ctx.platform)
  {
    JoinIsUnder(ctx.installDir(version), DotnetExecutable(ctx.platform));
    Join(ctx.installDir(version), DotnetExecutable(ctx.platform))
  }

  lemma DotnetPathUnderStorage(ctx: Context, version: string)
    ensures Under(ctx.installDir(version), ctx.storagePath) ==> Under(DotnetPath(ctx, version), ctx.storagePath)
  {
    if Under(ctx.installDir(version), ctx.storagePath) {
      UnderTransitive(DotnetPath(ctx, version), ctx.installDir(version), ctx.storagePath);
    }
  }

  // ---------------------------------------------------------------------------
  // The persisted version lists
  // ---------------------------------------------------------------------------

  /** `Array.prototype.indexOf` */
  function IndexOf(list: seq<string>, version: string): (i: int)
    ensures -1 <= i < |list|
    ensures i == -1 <==> version !in list
    ensures 0 <= i ==> list[i] == version && version !in list[..i]
    decreases |list|
  {
    if |list| == 0 then -1
    else if list[0] == version then 0
    else
      var j := IndexOf(list[1..], version);
      if j == -1 then -1
      else
        assert list[..j + 1] == [list[0]] + list[1..][..j];
        j + 1
  }

  /** `addVersionToExtensionState`: always appends, so a version can be listed twice. */
  function AddVersion(list: seq<string>, version: string): (r: seq<string>)
    ensures |r| == |list| + 1 && r[..|list|] == list && r[|list|] == version
  {
    list + [version]
  }

  /** `removeVersionFromExtensionState`: removes the first occurrence only, and leaves the
      list as it is when the version is absent. */
  function RemoveVersion(list: seq<string>, version: string): (r: seq<string>)
    ensures version !in list ==> r == list
    ensures version in list ==> |r| == |list| - 1
    ensures multiset(r) == multiset(list) - multiset{version}
  {
    var i := IndexOf(list, version);
    if i >= 0 then
      assert list == list[..i] + [version] + list[i + 1..];
      list[..i] + list[i + 1..]
    else
      assert multiset(list)[version] == 0;
      list
  }

  /** The occurrence removed is the first one, and the entries around it keep their order. */
  lemma RemoveVersionCutsFirstOccurrence(list: seq<string>, version: string)
    requires version in list
    ensures exists i ::
      && 0 <= i < |list| && list[i] == version && version !in list[..i]
      && RemoveVersion(list, version) == list[..i] + list[i + 1..]
  {
    var i := IndexOf(list, version);
    assert list[i] == version && version !in list[..i];
  }

  lemma {:induction false} IndexOfAppend(list: seq<string>, version: string, x: string)
    requires version in list
    ensures IndexOf(list + [x], version) == IndexOf(list, version)
    decreases |list|
  {
    if list[0] != version {
      assert (list + [x])[1..] == list[1..] + [x];
      IndexOfAppend(list[1..], version, x);
    }
  }

  /** Appending a version and then removing it cancels out only when the version was not
      listed before; otherwise the removal takes the EARLIER occurrence and the new one stays. */
  lemma RemoveAfterAdd(list: seq<string>, version: string)
    ensures version !in list ==> RemoveVersion(AddVersion(list, version), version) == list
    ensures version in list ==>
      RemoveVersion(AddVersion(list, version), version) == AddVersion(RemoveVersion(list, version), version)
  {
    if version in list {
      RemoveAfterAddListed(list, version);
    } else {
      RemoveAfterAddUnlisted(list, version);
    }
  }

  lemma RemoveAfterAddUnlisted(list: seq<string>, version: string)
    requires version !in list
    ensures RemoveVersion(list + [version], version) == list
  {
    var longer := list + [version];
    var i := IndexOf(longer, version);
    assert longer[|list|] == version;
    assert i == |list|;
    assert longer[..i] == list;
    assert longer[i + 1..] == [];
  }

  lemma RemoveAfterAddListed(list: seq<string>, version: string)
    requires version in list
    ensures RemoveVersion(list + [version], version) == RemoveVersion(list, version) + [version]
  {
    var i := IndexOf(list, version);
    var longer := list + [version];
    IndexOfAppend(list, version, version);
    assert longer[..i] == list[..i];
    assert longer[i + 1..] == list[i + 1..] + [version];
  }

  // ---------------------------------------------------------------------------
  // uninstallAll, uninstallRuntime
  // ---------------------------------------------------------------------------

  /** `uninstallAll`: drop every promise, delete the storage root, empty both lists. */
  function UninstallAll(ctx: Context, w: Worker): (r: Effect)
    ensures r.worker.Valid()
  {
    Effect(
      Worker([], [], map[], w.nextToken),
      [UninstallAllStarted, Deletion(ctx.storagePath), UninstallAllCompleted])
  }

  /** `uninstallRuntime`: forget one version. */
  function UninstallRuntime(ctx: Context, w: Worker, version: string): (r: Effect)
    ensures r.worker.promises.Keys == w.promises.Keys - {version}
    ensures forall v :: v in r.worker.promises ==> r.worker.promises[v] == w.promises[v]
    ensures multiset(r.worker.installed) == multiset(w.installed) - multiset{version}
    ensures multiset(r.worker.installing) == multiset(w.installing) - multiset{version}
    ensures r.worker.nextToken == w.nextToken
    ensures w.Valid() ==> r.worker.Valid()
  {
    Effect(
      Worker(
        RemoveVersion(w.installing, version),
        RemoveVersion(w.installed, version),
        w.promises - {version},
        w.nextToken),
      [Deletion(ctx.installDir(version))])
  }

  // ---------------------------------------------------------------------------
  // acquireCore
  // ---------------------------------------------------------------------------

  /** The oracles one local acquisition consults. */
  datatype LocalProbe = LocalProbe(
    executables: set<Path>,          // the executables on disk when the call starts
    sdkListing: Option<seq<string>>, // `readdir(<installDir>/sdk)`, None when it throws
    invoker: Option<string>,         // None when the install resolves, else the rejection reason
    validation: Option<Thrown>)      // None when the validator accepts, else what it throws

  /** The state after the partial-install check, and the executables still on disk. */
  datatype Recovery = Recovery(worker: Worker, present: set<Path>, events: seq<Event>)

  /** Recovery from an install a previous run left in `installing`: a runtime request
      forgets that one version, an SDK request resets everything. */
  function Recover(ctx: Context, w: Worker, version: string, isRuntime: bool, executables: set<Path>): (r: Recovery)
    ensures version !in w.installing ==> r == Recovery(w, executables, [])
    ensures r.present <= executables
    ensures version in w.installing && (isRuntime || Under(ctx.installDir(version), ctx.storagePath))
      ==> DotnetPath(ctx, version) !in r.present
    ensures r.worker.nextToken == w.nextToken
    ensures w.Valid() ==> r.worker.Valid()
  {
    if version in w.installing && isRuntime then
      var u := UninstallRuntime(ctx, w, version);
      Recovery(u.worker, RemoveUnder(executables, ctx.installDir(version)), [PartialInstallation(version)] + u.events)
    else if version in w.installing then
      var u := UninstallAll(ctx, w);
      DotnetPathUnderStorage(ctx, version);
      Recovery(u.worker, RemoveUnder(executables, ctx.storagePath), [PartialInstallation(version)] + u.events)
    else
      Recovery(w, executables, [])
  }

  /** The persisted state and the in-memory snapshot of `installed` after adoption. */
  datatype Adoption = Adoption(worker: Worker, snapshot: seq<string>, events: seq<Event>)

  /** The loop of `managePreinstalledVersion`: for each sub-folder name, post a
      detection event, append it to the persisted `installed` and to the snapshot. */
  function AdoptEach(w: Worker, snapshot: seq<string>, names: seq<string>): (r: Adoption)
    ensures r.worker == w.(installed := w.installed + names)
    ensures r.snapshot == snapshot + names
    ensures |r.events| == |names|
    ensures forall i :: 0 <= i < |names| ==> r.events[i] == PreinstallDetected(names[i])
    decreases |names|
  {
    if |names| == 0 then Adoption(w, snapshot, [])
    else
      var rest := AdoptEach(
        w.(installed := AddVersion(w.installed, names[0])),
        AddVersion(snapshot, names[0]),
        names[1..]);
      assert w.installed + [names[0]] + names[1..] == w.installed + names;
      assert snapshot + [names[0]] + names[1..] == snapshot + names;
      Adoption(rest.worker, rest.snapshot, [PreinstallDetected(names[0])] + rest.events)
  }

  /** `managePreinstalledVersion`: adopt every `sdk/` sub-folder of a pre-existing
      install; when listing the folder fails, post an error and change nothing. */
  function ManagePreinstalledVersion(w: Worker, snapshot: seq<string>, listing: Option<seq<string>>): (r: Adoption)
    ensures listing.None? ==> r == Adoption(w, snapshot, [PreinstallDetectionError])
    ensures listing.Some? ==>
      && r.worker == w.(installed := w.installed + listing.value)
      && r.snapshot == snapshot + listing.value
      && forall e :: e in r.events ==> e.PreinstallDetected? && e.version in listing.value
  {
    match listing
    case None => Adoption(w, snapshot, [PreinstallDetectionError])
    case Some(names) => AdoptEach(w, snapshot, names)
  }

  /** The install branch at the end of `acquireCore`: mark the version as installing, run the invoker,
      validate, then move the version from `installing` to `installed`. On a failure the
      `installing` marker stays for the next call to find. */
  function Install(w: Worker, version: string, path: Path, probe: LocalProbe): (r: Transition<Path, Thrown>)
    ensures r.worker.promises == w.promises && r.worker.nextToken == w.nextToken
    ensures r.events == [AcquisitionStarted(version)]
    ensures r.outcome.Ok? <==> probe.invoker.None? && probe.validation.None?
    ensures r.outcome.Ok? ==> r.outcome.value == path
    ensures r.outcome.Ok? ==>
      r.worker.installed == w.installed + [version] && multiset(r.worker.installing) == multiset(w.installing)
    ensures r.outcome.Err? ==>
      r.worker.installed == w.installed && r.worker.installing == w.installing + [version]
    ensures probe.invoker.Some? ==> r.outcome == Err(NewError("Installation failed: " + probe.invoker.value))
  {
    var started := w.(installing := AddVersion(w.installing, version));
    if probe.invoker.Some? then
      Transition(started, Err(NewError("Installation failed: " + probe.invoker.value)), [AcquisitionStarted(version)])
    else if probe.validation.Some? then
      Transition(started, Err(probe.validation.value), [AcquisitionStarted(version)])
    else
      Transition(
        started.(installing := RemoveVersion(started.installing, version),
                 installed := AddVersion(started.installed, version)),
        Ok(path), [AcquisitionStarted(version)])
  }

  /** `acquireCore`: recover from a partial install, adopt a pre-existing install, take
      the fast path when the version is installed, or else install it. The snapshot of
      `installed` is read before recovery; the existence checks see the disk after it. */
  function AcquireCore(ctx: Context, w: Worker, version: string, isRuntime: bool, probe: LocalProbe)
    : (r: Transition<Path, Thrown>)
    ensures r.worker.nextToken == w.nextToken
    ensures w.Valid() ==> r.worker.Valid()
    ensures r.outcome.Ok? ==> r.outcome.value == DotnetPath(ctx, version)
    ensures r.outcome.Ok? && Under(ctx.installDir(version), ctx.storagePath) ==> version in r.worker.installed
    ensures r.outcome.Err? && AcquisitionStarted(version) in r.events ==> version in r.worker.installing
    ensures version !in w.installing ==> r.worker.promises == w.promises
  {
    var snapshot := w.installed;
    var rec := Recover(ctx, w, version, isRuntime, probe.executables);
    var path := DotnetPath(ctx, version);
    var onDisk := path in rec.present;
    var adopted :=
      if onDisk && |snapshot| == 0 then ManagePreinstalledVersion(rec.worker, snapshot, probe.sdkListing)
      else Adoption(rec.worker, snapshot, []);
    var events := rec.events + adopted.events;
    if version in adopted.snapshot && onDisk then
      if probe.validation.Some? then
        Transition(adopted.worker, Err(probe.validation.value), events)
      else
        Transition(adopted.worker, Ok(path), events + [AlreadyInstalled(version)])
    else
      var installed := Install(adopted.worker, version, path, probe);
      Transition(installed.worker, installed.outcome, events + installed.events)
  }

  // ---------------------------------------------------------------------------
  // acquire, acquireSDK, acquireRuntime
  // ---------------------------------------------------------------------------

  const AcquisitionFailedPrefix := ".NET Acquisition Failed: "

  /** The message `acquire` rethrows with, built from the CAUSE of the failure. */
  function AcquisitionFailureMessage(t: Thrown): (m: string)
    ensures IsPrefix(AcquisitionFailedPrefix, m)
    ensures m[|AcquisitionFailedPrefix|..] == Reason(t)
  {
    AcquisitionFailedPrefix + Reason(t)
  }

  /** The message as the two `catch` handlers of `acquire` build it, from
      `error.message`; a promise rejected with a bare string has no such property. */
  function AcquisitionFailureMessageAsWritten(t: Thrown): (m: string)
    ensures IsPrefix(AcquisitionFailedPrefix, m)
    ensures t.ErrorValue? ==> m == AcquisitionFailureMessage(t)
    ensures t.StringValue? ==> m == AcquisitionFailedPrefix + "undefined"
  {
    AcquisitionFailedPrefix + MessageProperty(t)
  }

  /** A download rejected with a reason string surfaces as "... Failed: undefined", so two
      different download failures produce the same message. */
  lemma AsWrittenLosesDownloadReason()
    ensures AcquisitionFailureMessageAsWritten(StringValue("Server responded with 404: Not Found"))
         == AcquisitionFailedPrefix + "undefined"
    ensures AcquisitionFailureMessageAsWritten(StringValue("Server responded with 404: Not Found"))
         == AcquisitionFailureMessageAsWritten(StringValue("File already exists"))
  {
  }

  /** With the cause taken from the rejected value itself, different causes stay apart. */
  lemma FailureMessageKeepsReason(t1: Thrown, t2: Thrown)
    ensures AcquisitionFailureMessage(t1) == AcquisitionFailureMessage(t2) <==> Reason(t1) == Reason(t2)
  {
    var m1, m2 := AcquisitionFailureMessage(t1), AcquisitionFailureMessage(t2);
    if m1 == m2 {
      assert Reason(t1) == m1[|AcquisitionFailedPrefix|..];
    }
  }

  /** The bookkeeping `acquire` wraps around a core acquisition: a fresh promise is stored
      under the version, replacing any entry; on failure that key is deleted and the error
      is rethrown as the `catch` handlers write it, from `error.message`. */
  function Record(version: string, core: Transition<Path, Thrown>): (r: Transition<Path, string>)
    ensures r.worker.installing == core.worker.installing && r.worker.installed == core.worker.installed
    ensures r.worker.nextToken == core.worker.nextToken + 1
    ensures r.events == core.events
    ensures r.outcome.Ok? <==> core.outcome.Ok?
    ensures r.outcome.Ok? ==> r.outcome.value == core.outcome.value
    ensures r.outcome.Ok? <==> version in r.worker.promises
    ensures r.outcome.Ok? ==> r.worker.promises[version] == Acquisition(core.worker.nextToken, r.outcome.value)
    ensures r.outcome.Err? ==> IsPrefix(AcquisitionFailedPrefix, r.outcome.error)
    ensures r.outcome.Err? && core.outcome.error.ErrorValue? ==>
      r.outcome.error[|AcquisitionFailedPrefix|..] == Reason(core.outcome.error)
    ensures r.outcome.Err? && core.outcome.error.StringValue? ==>
      r.outcome.error == AcquisitionFailedPrefix + "undefined"
    ensures forall v :: v != version ==> (v in r.worker.promises <==> v in core.worker.promises)
    ensures forall v :: v in r.worker.promises && v != version ==>
      v in core.worker.promises && r.worker.promises[v] == core.worker.promises[v]
    ensures core.worker.Valid() ==> r.worker.Valid()
  {
    var token := core.worker.nextToken;
    var stored := core.worker.(nextToken := token + 1);
    match core.outcome
    case Ok(path) =>
      Transition(stored.(promises := stored.promises[version := Acquisition(token, path)]), Ok(path), core.events)
    case Err(t) =>
      Transition(stored.(promises := stored.promises - {version}), Err(AcquisitionFailureMessageAsWritten(t)), core.events)
  }

  /** `Record` with the corrected message: the same worker, events and success, but the
      error text carries the cause whether the failure was an error object or a string. */
  function RecordCorrected(version: string, core: Transition<Path, Thrown>): (r: Transition<Path, string>)
    ensures r.worker == Record(version, core).worker && r.events == Record(version, core).events
    ensures r.outcome.Ok? <==> Record(version, core).outcome.Ok?
    ensures r.outcome.Ok? ==> r.outcome == Record(version, core).outcome
    ensures r.outcome.Err? ==> IsPrefix(AcquisitionFailedPrefix, r.outcome.error)
    ensures r.outcome.Err? ==> r.outcome.error[|AcquisitionFailedPrefix|..] == Reason(core.outcome.error)
    ensures core.outcome.Err? && core.outcome.error.ErrorValue? ==> r == Record(version, core)
  {
    var token := core.worker.nextToken;
    var stored := core.worker.(nextToken := token + 1);
    match core.outcome
    case Ok(path) =>
      Transition(stored.(promises := stored.promises[version := Acquisition(token, path)]), Ok(path), core.events)
    case Err(t) =>
      Transition(stored.(promises := stored.promises - {version}), Err(AcquisitionFailureMessage(t)), core.events)
  }

  /** `acquire` for a local install; `acquireSDK` is `isRuntime == false`, `acquireRuntime`
      is `isRuntime == true`. There is no early return for a version already in flight:
      every call runs a fresh acquisition and overwrites the table entry. */
  function Acquire(ctx: Context, w: Worker, version: string, isRuntime: bool, probe: LocalProbe)
    : (r: Transition<Path, string>)
    ensures r.worker.nextToken == w.nextToken + 1
    ensures r.outcome.Ok? <==> version in r.worker.promises
    ensures r.outcome.Ok? ==> r.outcome.value == DotnetPath(ctx, version)
    ensures r.outcome.Ok? ==> r.worker.promises[version] == Acquisition(w.nextToken, r.outcome.value)
    ensures w.Valid() ==> r.worker.Valid()
    ensures w.Valid() && version in w.promises && version in r.worker.promises
      ==> r.worker.promises[version] != w.promises[version]
    ensures r.outcome.Err? ==> IsPrefix(AcquisitionFailedPrefix, r.outcome.error)
    ensures version !in w.installing ==>
      forall v :: v != version ==> (v in r.worker.promises <==> v in w.promises)
  {
    Record(version, AcquireCore(ctx, w, version, isRuntime, probe))
  }

  // ---------------------------------------------------------------------------
  // acquireStatus
  // ---------------------------------------------------------------------------

  datatype Status = Status(worker: Worker, result: Option<Path>, events: seq<Event>)

  /** `acquireStatus`: report the path of an acquisition in the table or of an installed
      version whose executable exists, after adopting a pre-existing install for SDK
      requests; never starts an install. */
  function AcquireStatus(
    ctx: Context, w: Worker, version: string, isRuntime: bool,
    executables: set<Path>, sdkListing: Option<seq<string>>): (r: Status)
    ensures r.worker.installing == w.installing
    ensures r.worker.promises == w.promises && r.worker.nextToken == w.nextToken
    ensures forall e :: e in r.events ==> !e.AcquisitionStarted?
    ensures isRuntime || version in w.promises ==> r.worker == w
    ensures r.worker.installed == w.installed || (|w.installed| == 0 && DotnetPath(ctx, version) in executables)
    ensures |w.installed| > 0 || DotnetPath(ctx, version) !in executables ==> r.worker == w
    ensures !isRuntime && version !in w.promises && |w.installed| == 0 && DotnetPath(ctx, version) in executables ==>
      r.worker.installed == w.installed + (if sdkListing.Some? then sdkListing.value else [])
    ensures version in w.promises ==> r.result == Some(w.promises[version].path)
    ensures version !in w.promises ==>
      (r.result.Some? <==> version in r.worker.installed && DotnetPath(ctx, version) in executables)
    ensures version !in w.promises && r.result.Some? ==> r.result.value == DotnetPath(ctx, version)
  {
    if version in w.promises then
      Status(w, Some(w.promises[version].path), [StatusResolved(version)])
    else
      var path := DotnetPath(ctx, version);
      var adopted :=
        if |w.installed| == 0 && path in executables && !isRuntime then
          ManagePreinstalledVersion(w, w.installed, sdkListing)
        else Adoption(w, w.installed, []);
      if version in adopted.snapshot && path in executables then
        Status(adopted.worker, Some(path), adopted.events + [StatusResolved(version)])
      else
        Status(adopted.worker, None, adopted.events + [StatusUndefined(version)])
  }

  // ---------------------------------------------------------------------------
  // acquireGlobalCore, acquireGlobalSDK
  // ---------------------------------------------------------------------------

  /** The oracles one global acquisition consults. */
  datatype GlobalProbe = GlobalProbe(
    fullVersion: string,      // `getFullVersion()`
    conflict: string,         // `GlobalInstallWithConflictingVersionAlreadyExists()`
    installerUrl: string,     // `getInstallerUrl()`
    download: Option<Thrown>, // None when the download finishes, else what it rejects with
    installerExit: string,    // what `executeInstaller` returns
    arch: string)             // `os.arch()`

  const ConflictMessage := "An global install is already on the machine with a version that conflicts with the requested version."

  const WindowsX64SdkRoot: Path := ["C:", "Program Files", "dotnet", "sdk"]
  const WindowsX86SdkRoot: Path := ["C:", "Program Files (x86)", "dotnet", "sdk"]
  const MacSdkRoot: Path := ["", "usr", "local", "share", "dotnet", "sdk"]
  const MacX64SdkRoot: Path := ["", "usr", "local", "share", "dotnet", "x64", "dotnet", "sdk"]

  /** The SDK root a global installer lays down on the platform and architecture, or
      None where the mapping gives the empty path. */
  function GlobalSdkRoot(platform: Platform, arch: string): (root: Option<Path>)
    ensures root.Some? ==> platform == Win32 || platform == Darwin
    ensures platform == Darwin ==> root.Some?
    ensures platform == Win32 ==> (root.Some? <==> arch == "x32" || arch == "x64")
  {
    match platform
    case Win32 =>
      if arch == "x32" then Some(WindowsX86SdkRoot)
      else if arch == "x64" then Some(WindowsX64SdkRoot)
      else None
    case Darwin =>
      if arch != "x64" then Some(MacSdkRoot) else Some(MacX64SdkRoot)
    case _ => None
  }

  /** `getGloballyInstalledSDKPath` */
  function GloballyInstalledSdkPath(platform: Platform, version: string, arch: string): (p: Path)
    ensures GlobalSdkRoot(platform, arch).None? ==> p == []
    ensures GlobalSdkRoot(platform, arch).Some? && version != "" ==>
      Dirname(p) == GlobalSdkRoot(platform, arch).value && p[|p| - 1] == version
  {
    match GlobalSdkRoot(platform, arch)
    case None => []
    case Some(root) => Join(root, version)
  }

  /** The fixed install layout of global SDKs, row by row. */
  lemma GlobalSdkPathTable(version: string, arch: string)
    requires version != ""
    ensures Dirname(GloballyInstalledSdkPath(Win32, version, "x64")) == WindowsX64SdkRoot
    ensures Dirname(GloballyInstalledSdkPath(Win32, version, "x32")) == WindowsX86SdkRoot
    ensures arch != "x64" ==> Dirname(GloballyInstalledSdkPath(Darwin, version, arch)) == MacSdkRoot
    ensures Dirname(GloballyInstalledSdkPath(Darwin, version, "x64")) == MacX64SdkRoot
    ensures arch != "x32" && arch != "x64" ==> GloballyInstalledSdkPath(Win32, version, arch) == []
    ensures GloballyInstalledSdkPath(Linux, version, arch) == []
  {
  }

  /** The installer file name: the text after the last `/` of the installer URL. */
  function InstallerFileName(installerUrl: string): (name: string)
    ensures '/' !in name
    ensures |name| <= |installerUrl| && installerUrl[|installerUrl| - |name|..] == name
    ensures |name| == |installerUrl| || installerUrl[|installerUrl| - |name| - 1] == '/'
  {
    LastPiece(installerUrl, '/')
  }

  /** `downloadInstallerOnMachine`: where the installer is saved. */
  function InstallerPath(ctx: Context, installerUrl: string): (p: Path)
    ensures InstallerFileName(installerUrl) != "" ==>
      Dirname(p) == ctx.moduleDir + ["installers"] && p[|p| - 1] == InstallerFileName(installerUrl)
  {
    Join(Join(ctx.moduleDir, "installers"), InstallerFileName(installerUrl))
  }

  /** `acquireGlobalCore`: refuse on a conflicting global install, download the installer,
      mark the version as installing, run the installer, and move the version to
      `installed` whatever the installer returned. */
  function AcquireGlobalCore(ctx: Context, w: Worker, probe: GlobalProbe): (r: Transition<Path, Thrown>)
    ensures probe.conflict != "" ==> r == Transition(w, Err(NewError(ConflictMessage)), [])
    ensures probe.conflict == "" && probe.download.Some? ==>
      r == Transition(w, Err(probe.download.value), [])
    ensures r.outcome.Ok? <==> probe.conflict == "" && probe.download.None?
    ensures r.outcome.Ok? ==>
      && r.outcome.value == GloballyInstalledSdkPath(ctx.platform, probe.fullVersion, probe.arch)
      && r.worker.installed == w.installed + [probe.fullVersion]
      && multiset(r.worker.installing) == multiset(w.installing)
      && r.worker.promises == w.promises && r.worker.nextToken == w.nextToken
      && r.events == [AcquisitionStarted(probe.fullVersion)]
  {
    if probe.conflict != "" then
      Transition(w, Err(NewError(ConflictMessage)), [])
    else if probe.download.Some? then
      Transition(w, Err(probe.download.value), [])
    else
      var v := probe.fullVersion;
      var started := w.(installing := AddVersion(w.installing, v));
      var path := GloballyInstalledSdkPath(ctx.platform, v, probe.arch);
      Transition(
        started.(installing := RemoveVersion(started.installing, v), installed := AddVersion(started.installed, v)),
        Ok(path), [AcquisitionStarted(v)])
  }

  /** `acquireGlobalSDK`: `acquire` keyed by the full version the resolver reports. */
  function AcquireGlobalSdk(ctx: Context, w: Worker, probe: GlobalProbe): (r: Transition<Path, string>)
    ensures r.worker.nextToken == w.nextToken + 1
    ensures probe.conflict != "" ==>
      && r.worker.installing == w.installing && r.worker.installed == w.installed
      && r.outcome == Err(AcquisitionFailedPrefix + ConflictMessage)
    ensures r.outcome.Ok? <==> probe.conflict == "" && probe.download.None?
    ensures r.outcome.Ok? ==> probe.fullVersion in r.worker.promises && r.worker.promises[probe.fullVersion] == Acquisition(w.nextToken, r.outcome.value)
    ensures probe.conflict == "" && probe.download.Some? ==> probe.fullVersion !in r.worker.promises
    ensures probe.conflict == "" && probe.download.Some? && probe.download.value.StringValue? ==>
      r.outcome == Err(AcquisitionFailedPrefix + "undefined")
    ensures probe.conflict == "" && probe.download.Some? && probe.download.value.ErrorValue? ==>
      r.outcome == Err(AcquisitionFailedPrefix + probe.download.value.message)
    ensures w.Valid() ==> r.worker.Valid()
  {
    Record(probe.fullVersion, AcquireGlobalCore(ctx, w, probe))
  }

  /** `acquireGlobalSDK` with the corrected message: a failed download reports its reason. */
  function AcquireGlobalSdkCorrected(ctx: Context, w: Worker, probe: GlobalProbe): (r: Transition<Path, string>)
    ensures r.worker == AcquireGlobalSdk(ctx, w, probe).worker
    ensures r.outcome.Ok? <==> AcquireGlobalSdk(ctx, w, probe).outcome.Ok?
    ensures probe.conflict != "" ==> r.outcome == AcquireGlobalSdk(ctx, w, probe).outcome
    ensures probe.conflict == "" && probe.download.Some? ==>
      r.outcome == Err(AcquisitionFailedPrefix + Reason(probe.download.value))
  {
    RecordCorrected(probe.fullVersion, AcquireGlobalCore(ctx, w, probe))
  }

  /** On the global pipeline, two downloads that fail for different reasons read the same
      as written, and apart once corrected. */
  lemma GlobalDownloadFailureMessages(ctx: Context, w: Worker, probe: GlobalProbe, reason1: string, reason2: string)
    requires probe.conflict == "" && reason1 != reason2
    ensures var p1, p2 := probe.(download := Some(StringValue(reason1))), probe.(download := Some(StringValue(reason2)));
      && AcquireGlobalSdk(ctx, w, p1) == AcquireGlobalSdk(ctx, w, p2)
      && AcquireGlobalSdkCorrected(ctx, w, p1).outcome != AcquireGlobalSdkCorrected(ctx, w, p2).outcome
  {
    var p1, p2 := probe.(download := Some(StringValue(reason1))), probe.(download := Some(StringValue(reason2)));
    var m1 := AcquireGlobalSdkCorrected(ctx, w, p1).outcome.error;
    assert m1[|AcquisitionFailedPrefix|..] == reason1;
  }
}

=== FILE: host.dfy ===
/** The host operating system as the acquisition library sees it through `os.platform()`. */
module Host {

  datatype Platform = Win32 | Darwin | Linux | OtherPlatform

  /** The name of the dotnet host executable: `dotnet.exe` on Windows, `dotnet` elsewhere. */
  function DotnetExecutable(platform: Platform): (name: string)
    ensures |name| >= 6
    ensures name[..6] == "dotnet"
    ensures platform == Win32 <==> name == "dotnet.exe"
    ensures platform != Win32 ==> name == "dotnet"
  {
    "dotnet" + (if platform == Win32 then ".exe" else "")
  }

  /** The path separator `path.join` and the finder tools use on the platform. */
  function Separator(platform: Platform): char {
    if platform == Win32 then '\\' else '/'
  }
}

=== FILE: install_script.dfy ===
/** `InstallScriptAcquisitionWorker`: fetch the platform's dotnet-install script, write it
    to disk, and fall back to the copy already on disk when either step fails. The
    caching web worker, the file writer and the existence check are oracles. */
module InstallScript {
  import opened Outcomes
  import opened Host
  import opened Paths
  import opened Text

  const ScriptAcquisitionUrl := "https://dot.net/v1/dotnet-install."
  const ScriptFileName := "dotnet-install"
  const FailurePrefix := "Failed to Acquire Dotnet Install Script: "

  /** `ps1` on Windows, `sh` elsewhere. */
  function ScriptFileEnding(platform: Platform): (ending: string)
    ensures ending == "ps1" <==> platform == Win32
    ensures ending == "ps1" || ending == "sh"
  {
    if platform == Win32 then "ps1" else "sh"
  }

  /** What the constructor computes: where the script is written and where it comes from. */
  datatype ScriptWorker = ScriptWorker(scriptFilePath: Path, scriptUrl: string)

  function NewScriptWorker(platform: Platform, moduleDir: Path): (w: ScriptWorker)
    ensures Dirname(w.scriptFilePath) == moduleDir + ["install scripts"]
    ensures w.scriptFilePath[|w.scriptFilePath| - 1] == ScriptFileName + "." + ScriptFileEnding(platform)
    ensures w.scriptUrl == ScriptAcquisitionUrl + ScriptFileEnding(platform)
  {
    ScriptWorker(
      Join(Join(moduleDir, "install scripts"), ScriptFileName + "." + ScriptFileEnding(platform)),
      ScriptAcquisitionUrl + ScriptFileEnding(platform))
  }

  /** The script is fetched from a URL whose last piece is the name of the file it is
      written to, so both carry the same ending. */
  lemma UrlNamesTheScriptFile(platform: Platform, moduleDir: Path)
    ensures var w := NewScriptWorker(platform, moduleDir);
      LastPiece(w.scriptUrl, '/') == w.scriptFilePath[|w.scriptFilePath| - 1]
  {
    var ending := ScriptFileEnding(platform);
    var name := ScriptFileName + "." + ending;
    assert '/' !in name by {
      assert name == "dotnet-install.ps1" || name == "dotnet-install.sh";
    }
    assert ScriptAcquisitionUrl + ending == "https://dot.net/v1" + ['/'] + name;
    LastPieceAfterSeparator("https://dot.net/v1", '/', name);
  }

  /** `getFallbackScriptPath`: the fallback is the very file the fetched script is written to. */
  function FallbackScriptPath(w: ScriptWorker): (p: Path)
    ensures p == w.scriptFilePath
  {
    w.scriptFilePath
  }

  /** Notifications posted to the event stream. */
  datatype ScriptEvent = AcquisitionCompleted | AcquisitionError(cause: Thrown) | FallbackUsed

  /** What `getCachedData` produced. */
  datatype Fetch = Fetched(data: string) | NotFetched | FetchThrew(cause: Thrown)

  datatype ScriptRun = ScriptRun(result: Result<Path, string>, events: seq<ScriptEvent>)

  /** The fetch succeeded with a non-empty script. */
  predicate HasScript(fetch: Fetch) {
    fetch.Fetched? && fetch.data != ""
  }

  /** What the `try` block of `getDotnetInstallScriptPath` throws, if anything: the fetch's
      own error, an error for a missing or empty script, or what the writer threw. */
  function ScriptFailure(fetch: Fetch, write: Option<Thrown>): (f: Option<Thrown>)
    ensures f.None? <==> HasScript(fetch) && write.None?
    ensures fetch.FetchThrew? ==> f == Some(fetch.cause)
    ensures HasScript(fetch) ==> f == write
    ensures !fetch.FetchThrew? && !HasScript(fetch) ==> f == Some(NewError("Unable to get script path."))
  {
    match fetch
    case FetchThrew(cause) => Some(cause)
    case NotFetched => Some(NewError("Unable to get script path."))
    case Fetched(data) =>
      if data == "" then Some(NewError("Unable to get script path.")) else write
  }

  /** `getDotnetInstallScriptPath`. `write` is None when the script was written, else
      what the writer threw; `fallbackExists` is the existence check on the fallback. */
  function GetDotnetInstallScriptPath(w: ScriptWorker, fetch: Fetch, write: Option<Thrown>, fallbackExists: bool)
    : (r: ScriptRun)
    ensures r.result.Ok? ==> r.result.value == w.scriptFilePath
    ensures r.result.Err? <==> !(HasScript(fetch) && write.None?) && !fallbackExists
    ensures r.result.Err? ==> IsPrefix(FailurePrefix, r.result.error)
    ensures r.result.Err? ==> r.result.error[|FailurePrefix|..] == Render(ScriptFailure(fetch, write).value)
    ensures AcquisitionCompleted in r.events <==> HasScript(fetch) && write.None?
    ensures AcquisitionCompleted in r.events ==> r.events == [AcquisitionCompleted]
    ensures FallbackUsed in r.events <==> !(HasScript(fetch) && write.None?) && fallbackExists
    ensures FallbackUsed in r.events ==> |r.events| == 2 && r.events[0].AcquisitionError? && r.events[1] == FallbackUsed
    ensures ScriptFailure(fetch, write).Some? ==>
      |r.events| >= 1 && r.events[0] == AcquisitionError(ScriptFailure(fetch, write).value)
  {
    match ScriptFailure(fetch, write)
    case None => ScriptRun(Ok(w.scriptFilePath), [AcquisitionCompleted])
    case Some(error) =>
      if fallbackExists then
        ScriptRun(Ok(FallbackScriptPath(w)), [AcquisitionError(error), FallbackUsed])
      else
        ScriptRun(Err(FailurePrefix + Render(error)), [AcquisitionError(error)])
  }

  /** A fetch that yields nothing, or only the empty script, is handled exactly like a
      fetch that threw "Unable to get script path.". */
  lemma EmptyScriptIsAFailure(w: ScriptWorker, write: Option<Thrown>, fallbackExists: bool)
    ensures var thrown := FetchThrew(NewError("Unable to get script path."));
      && GetDotnetInstallScriptPath(w, Fetched(""), write, fallbackExists)
         == GetDotnetInstallScriptPath(w, thrown, write, fallbackExists)
      && GetDotnetInstallScriptPath(w, NotFetched, write, fallbackExists)
         == GetDotnetInstallScriptPath(w, thrown, write, fallbackExists)
  {
  }

  /** Without a fallback, every failure of the `try` block ends in one error event carrying
      the thrown value and an error message naming it: a fetch that threw, a missing or
      empty script, or a write that threw. */
  lemma FailureMessageNamesCause(w: ScriptWorker, fetch: Fetch, write: Option<Thrown>, cause: Thrown)
    requires || fetch == FetchThrew(cause)
             || (HasScript(fetch) && write == Some(cause))
             || (!fetch.FetchThrew? && !HasScript(fetch) && cause == NewError("Unable to get script path."))
    ensures GetDotnetInstallScriptPath(w, fetch, write, false)
         == ScriptRun(Err(FailurePrefix + Render(cause)), [AcquisitionError(cause)])
  {
    assert ScriptFailure(fetch, write) == Some(cause);
  }
}

=== FILE: linux_versions.dfy ===
/** The table from a Linux distribution and its version to the SDK version the test
    suite expects there (`getLinuxSupportedDotnetSDKVersion`). Versions are compared with
    JavaScript's string `<`, character by character. */
module LinuxVersions {
  import opened Outcomes
  import opened Text

  /** The distribution name as the version resolver reports it: one of the two keys the
      table knows, or any other name. */
  datatype Distro = Ubuntu | RedHat | OtherDistro(name: string)

  datatype DistroVersionPair = DistroVersionPair(distro: Distro, version: string)

  /** The four SDK versions the table hands out. */
  predicate IsKnownSdk(v: string) {
    v == "6.0.100" || v == "7.0.100" || v == "8.0.100" || v == "9.0.100"
  }

  /** `getLatestLinuxDotnet`: the newest of the SDKs the table knows. */
  function LatestLinuxDotnet(): (latest: string)
    ensures IsKnownSdk(latest)
    ensures forall v :: IsKnownSdk(v) ==> CodeUnitLessOrEqual(v, latest)
  {
    "9.0.100"
  }

  /** The table itself. */
  function SupportedSdkVersion(info: DistroVersionPair): (sdk: string)
    ensures IsKnownSdk(sdk)
  {
    match info.distro
    case Ubuntu =>
      if CodeUnitLess(info.version, "22.04") then "6.0.100"
      else if CodeUnitLess(info.version, "24.04") then "9.0.100"
      else "8.0.100"
    case RedHat =>
      if CodeUnitLess(info.version, "8.0") then "7.0.100" else "9.0.100"
    case OtherDistro(_) => LatestLinuxDotnet()
  }

  /** `getLinuxSupportedDotnetSDKVersion`: a supplied pair is used as it is; only when
      none is supplied is the running distribution probed. */
  function GetLinuxSupportedDotnetSdkVersion(supplied: Option<DistroVersionPair>, probe: DistroVersionPair)
    : (sdk: string)
    ensures IsKnownSdk(sdk)
    ensures supplied.Some? ==> sdk == SupportedSdkVersion(supplied.value)
    ensures supplied.None? ==> sdk == SupportedSdkVersion(probe)
  {
    SupportedSdkVersion(if supplied.Some? then supplied.value else probe)
  }

  /** Ubuntu's three bands, each stated as a range of versions. */
  lemma UbuntuBands(version: string)
    ensures var sdk := SupportedSdkVersion(DistroVersionPair(Ubuntu, version));
      && (sdk == "6.0.100" <==> CodeUnitLess(version, "22.04"))
      && (sdk == "9.0.100" <==> CodeUnitLessOrEqual("22.04", version) && CodeUnitLess(version, "24.04"))
      && (sdk == "8.0.100" <==> CodeUnitLessOrEqual("24.04", version))
  {
    NotLessIsAtLeast(version, "22.04");
    NotLessIsAtLeast(version, "24.04");
    if CodeUnitLess(version, "22.04") {
      assert CodeUnitLess("22.04", "24.04");
      CodeUnitLessTransitive(version, "22.04", "24.04");
    }
  }

  /** Red Hat's two bands. */
  lemma RedHatBands(version: string)
    ensures var sdk := SupportedSdkVersion(DistroVersionPair(RedHat, version));
      && (sdk == "7.0.100" <==> CodeUnitLess(version, "8.0"))
      && (sdk == "9.0.100" <==> CodeUnitLessOrEqual("8.0", version))
  {
    NotLessIsAtLeast(version, "8.0");
  }

  /** Any distribution outside the table gets the latest known SDK. */
  lemma OtherDistroGetsLatest(name: string, version: string)
    ensures SupportedSdkVersion(DistroVersionPair(OtherDistro(name), version)) == "9.0.100"
  {
  }

  /** The examples the table is meant to reproduce. */
  lemma TableExamples()
    ensures SupportedSdkVersion(DistroVersionPair(Ubuntu, "20.04")) == "6.0.100"
    ensures SupportedSdkVersion(DistroVersionPair(Ubuntu, "23.04")) == "9.0.100"
    ensures SupportedSdkVersion(DistroVersionPair(Ubuntu, "24.04")) == "8.0.100"
    ensures SupportedSdkVersion(DistroVersionPair(RedHat, "7.9")) == "7.0.100"
    ensures SupportedSdkVersion(DistroVersionPair(RedHat, "9.0")) == "9.0.100"
  {
    CodeUnitLessIrreflexive("24.04");
  }

  /** Character-wise comparison puts "10.0" before "8.0", so Red Hat 10 lands in the
      oldest band. */
  lemma RedHatTenIsOldestBand()
    ensures CodeUnitLess("10.0", "8.0")
    ensures SupportedSdkVersion(DistroVersionPair(RedHat, "10.0")) == "7.0.100"
  {
  }

  /** The Ubuntu mapping is not monotonic: a later release maps to an older SDK. */
  lemma UbuntuNotMonotonic()
    ensures CodeUnitLess("23.04", "24.04")
    ensures SupportedSdkVersion(DistroVersionPair(Ubuntu, "23.04")) == "9.0.100"
    ensures SupportedSdkVersion(DistroVersionPair(Ubuntu, "24.04")) == "8.0.100"
  {
    CodeUnitLessIrreflexive("24.04");
  }
}

=== FILE: outcomes.dfy ===
/** Option and Result, and the values JavaScript code can throw or reject a promise with. */
module Outcomes {

  datatype Option<+T> = None | Some(value: T)

  datatype Result<+T, +E> = Ok(value: T) | Err(error: E)

  /** A thrown or rejected value: an `Error` object with its `name` and `message`,
      or a bare string, which is what `reject("...")` produces. */
  datatype Thrown = ErrorValue(name: string, message: string) | StringValue(text: string)

  /** `new Error(message)` */
  function NewError(message: string): Thrown {
    ErrorValue("Error", message)
  }

  /** What the template `${t}` renders: `Error.prototype.toString` for an error object,
      the text itself for a string. */
  function Render(t: Thrown): string {
    match t
    case ErrorValue(name, msg) =>
      if msg == "" then name else if name == "" then msg else name + ": " + msg
    case StringValue(s) => s
  }

  /** What the template `${t.message}` renders. A string primitive has no `message`
      property, so for a rejected string this renders as "undefined". */
  function MessageProperty(t: Thrown): string {
    match t
    case ErrorValue(_, msg) => msg
    case StringValue(_) => "undefined"
  }

  /** The cause a thrown value carries: the message of an error object, the text of a string. */
  function Reason(t: Thrown): string {
    match t
    case ErrorValue(_, msg) => msg
    case StringValue(s) => s
  }
}

=== FILE: path_finder.dfy ===
/** `DotnetPathFinder`: where the dotnet executable is, from the root environment
    variables or from a `which`/`where` lookup whose answer is corrected through the
    runtime listing. The OS architecture probe, the command output, `realpath` and the
    runtime listing are oracles. */
module PathFinder {
  import opened Outcomes
  import opened Host
  import opened Paths
  import opened Text

  /** `finderCommand` */
  function FinderCommand(platform: Platform): (cmd: string)
    ensures cmd == "where" || cmd == "which"
    ensures cmd == "where" <==> platform == Win32
  {
    if platform == Win32 then "where" else "which"
  }

  /** The environment variables the finder reads. */
  datatype Environment = Environment(
    dotnetRoot: Option<string>,     // DOTNET_ROOT
    dotnetRootX64: Option<string>,  // DOTNET_ROOT_X64
    shell: Option<string>)          // SHELL

  /** `EnvironmentVariableIsDefined`, taken as "the variable is set". */
  predicate IsDefined(v: Option<string>) {
    v.Some?
  }

  /** The x64 emulation case: x64 requested on an OS whose architecture mentions arm. */
  predicate EmulatesX64(requestedArch: string, osArch: string) {
    requestedArch == "x64" && Contains(osArch, "arm")
  }

  /** `findDotnetRootPath` */
  function FindDotnetRootPath(requestedArch: string, osArch: string, env: Environment): (r: Option<string>)
    ensures r.Some? ==> r == env.dotnetRootX64 || r == env.dotnetRoot
    ensures r == env.dotnetRootX64 && r != env.dotnetRoot ==> EmulatesX64(requestedArch, osArch)
    ensures r.None? <==> !IsDefined(env.dotnetRoot) && !(EmulatesX64(requestedArch, osArch) && IsDefined(env.dotnetRootX64))
  {
    if EmulatesX64(requestedArch, osArch) && IsDefined(env.dotnetRootX64) then env.dotnetRootX64
    else if IsDefined(env.dotnetRoot) then env.dotnetRoot
    else None
  }

  /** The first defined variable of a priority list. */
  function FirstDefined(candidates: seq<Option<string>>): Option<string> {
    if |candidates| == 0 then None
    else if IsDefined(candidates[0]) then candidates[0]
    else FirstDefined(candidates[1..])
  }

  /** The variables consulted, highest priority first. */
  function RootCandidates(requestedArch: string, osArch: string, env: Environment): seq<Option<string>> {
    (if EmulatesX64(requestedArch, osArch) then [env.dotnetRootX64] else []) + [env.dotnetRoot]
  }

  /** The lookup is the first defined variable in priority order. */
  lemma FindDotnetRootPathIsPriorityOrder(requestedArch: string, osArch: string, env: Environment)
    ensures FindDotnetRootPath(requestedArch, osArch, env) == FirstDefined(RootCandidates(requestedArch, osArch, env))
  {
    var c := RootCandidates(requestedArch, osArch, env);
    assert FirstDefined([env.dotnetRoot]) == (if IsDefined(env.dotnetRoot) then env.dotnetRoot else None) by {
      assert [env.dotnetRoot][1..] == [];
    }
    if EmulatesX64(requestedArch, osArch) {
      assert c == [env.dotnetRootX64, env.dotnetRoot];
      assert c[1..] == [env.dotnetRoot];
    } else {
      assert c == [env.dotnetRoot];
    }
  }

  /** On an ARM machine asking for x64, DOTNET_ROOT_X64 wins whenever it is set. */
  lemma EmulationPrefersX64Root(osArch: string, env: Environment, pre: string, post: string)
    requires osArch == pre + "arm" + post
    requires IsDefined(env.dotnetRootX64)
    ensures FindDotnetRootPath("x64", osArch, env) == env.dotnetRootX64
  {
    ContainsInfix(pre, "arm", post);
  }

  /** The `shell` option of the finder command. */
  function ShellOption(tryUseTrueShell: bool, platform: Platform, shell: Option<string>): (r: Option<string>)
    ensures r.Some? <==> tryUseTrueShell && platform != Win32
    ensures r.Some? ==> r.value == "/bin/bash" || r.value == "/bin/sh"
    ensures r.Some? ==> (r.value == "/bin/bash" <==> shell == Some("/bin/bash"))
  {
    if tryUseTrueShell && platform != Win32 then
      Some(if shell == Some("/bin/bash") then "/bin/bash" else "/bin/sh")
    else None
  }

  /** The path text a command prints, as segments. */
  function ParsePath(platform: Platform, text: string): (p: Path)
    ensures |p| >= 1 && JoinWith(p, Separator(platform)) == text
    ensures forall i :: 0 <= i < |p| ==> Separator(platform) !in p[i]
  {
    SplitThenJoin(text, Separator(platform));
    Split(text, Separator(platform))
  }

  /** `getTruePath`: when the runtime listing of the tentative path is not empty, the
      executable sits two levels above the first runtime directory; otherwise the
      tentative path is kept. */
  function GetTruePath(platform: Platform, tentative: Path, runtimeDirs: seq<Path>): (p: Path)
    ensures |runtimeDirs| == 0 ==> p == tentative
    ensures |runtimeDirs| > 0 ==> |p| >= 1
    ensures |runtimeDirs| > 0 ==>
      Dirname(p) == Dirname(Dirname(runtimeDirs[0])) && p[|p| - 1] == DotnetExecutable(platform)
  {
    if |runtimeDirs| > 0 then
      Join(Dirname(Dirname(runtimeDirs[0])), DotnetExecutable(platform))
    else tentative
  }

  /** With the documented layout `<root>/shared/<runtime name>`, the derived path is
      `<root>/dotnet[.exe]`, whatever the tentative path and the later runtimes are. */
  lemma GetTruePathFollowsInstallLayout(
    platform: Platform, tentative: Path, root: Path, name: string, later: seq<Path>)
    ensures GetTruePath(platform, tentative, [root + ["shared", name]] + later) == root + [DotnetExecutable(platform)]
  {
    assert Dirname(root + ["shared", name]) == root + ["shared"];
    assert Dirname(root + ["shared"]) == root;
  }

  /** With a non-empty runtime listing the answer depends on the first runtime directory
      only: neither the tentative path nor the later entries matter. */
  lemma GetTruePathDependsOnFirstRuntimeOnly(
    platform: Platform, t1: Path, t2: Path, first: Path, later1: seq<Path>, later2: seq<Path>)
    ensures GetTruePath(platform, t1, [first] + later1) == GetTruePath(platform, t2, [first] + later2)
  {
    assert ([first] + later1)[0] == first == ([first] + later2)[0];
  }

  /** `findRawPathEnvironmentSetting`: the trimmed output of the finder command, if any,
      corrected through `getTruePath`. `stdout` is None when no command ran. */
  function FindRawPathEnvironmentSetting(
    platform: Platform, stdout: Option<string>, listRuntimes: Path -> seq<Path>): (r: Option<Path>)
    ensures r.None? <==> stdout.None? || AllWhitespace(stdout.value)
    ensures r.Some? ==> |r.value| >= 1
    ensures r.Some? && |listRuntimes(ParsePath(platform, Trim(stdout.value)))| == 0 ==>
      JoinWith(r.value, Separator(platform)) == Trim(stdout.value)
    ensures r.Some? && |listRuntimes(ParsePath(platform, Trim(stdout.value)))| > 0 ==>
      r.value[|r.value| - 1] == DotnetExecutable(platform)
    ensures r.Some? && |listRuntimes(ParsePath(platform, Trim(stdout.value)))| > 0 ==>
      Dirname(r.value) == Dirname(Dirname(listRuntimes(ParsePath(platform, Trim(stdout.value)))[0]))
  {
    match stdout
    case None => None
    case Some(out) =>
      var text := Trim(out);
      TrimEmptyIffWhitespace(out);
      if text == "" then None
      else
        var tentative := ParsePath(platform, text);
        Some(GetTruePath(platform, tentative, listRuntimes(tentative)))
  }

  /** The answer of `findRealPathEnvironmentSetting`. */
  datatype Lookup = NotFound | Found(path: Path) | RealpathFailed

  /** `findRealPathEnvironmentSetting`: resolve the raw answer with `realpath` (None when
      `realpathSync` throws) and correct the result through `getTruePath` again. */
  function FindRealPathEnvironmentSetting(
    platform: Platform, stdout: Option<string>, listRuntimes: Path -> seq<Path>,
    realpath: Path -> Option<Path>): (r: Lookup)
    ensures r.NotFound? <==> FindRawPathEnvironmentSetting(platform, stdout, listRuntimes).None?
    ensures r.Found? ==>
      var raw := FindRawPathEnvironmentSetting(platform, stdout, listRuntimes).value;
      realpath(raw).Some? && (|listRuntimes(realpath(raw).value)| == 0 ==> r.path == realpath(raw).value)
    ensures r.Found? ==>
      var resolved := realpath(FindRawPathEnvironmentSetting(platform, stdout, listRuntimes).value).value;
      |listRuntimes(resolved)| > 0 ==>
        |r.path| >= 1 && r.path[|r.path| - 1] == DotnetExecutable(platform)
        && Dirname(r.path) == Dirname(Dirname(listRuntimes(resolved)[0]))
    ensures r.RealpathFailed? ==> realpath(FindRawPathEnvironmentSetting(platform, stdout, listRuntimes).value).None?
  {
    match FindRawPathEnvironmentSetting(platform, stdout, listRuntimes)
    case None => NotFound
    case Some(raw) =>
      match realpath(raw)
      case None => RealpathFailed
      case Some(resolved) => Found(GetTruePath(platform, resolved, listRuntimes(resolved)))
  }
}

=== FILE: paths.dfy ===
/** File-system paths as sequences of segments. An absolute POSIX path starts with the
    empty segment (the part before its leading `/`), so `Text.Split` of its text is its
    segment sequence. */
module Paths {

  type Path = seq<string>

  /** `path.dirname`: drop the last segment (the empty path stays empty). */
  function Dirname(p: Path): (d: Path)
    ensures |p| > 0 ==> d + [p[|p| - 1]] == p
    ensures |p| == 0 ==> d == p
  {
    if |p| == 0 then p else p[..|p| - 1]
  }

  /** `path.join(dir, segment)`: an empty segment leaves the directory as it is. */
  function Join(dir: Path, segment: string): (p: Path)
    ensures segment != "" ==> |p| == |dir| + 1 && Dirname(p) == dir && p[|p| - 1] == segment
    ensures segment == "" ==> p == dir
  {
    if segment == "" then dir else dir + [segment]
  }

  /** `p` is `dir` itself or lies somewhere below it. */
  predicate Under(p: Path, dir: Path) {
    |dir| <= |p| && p[..|dir|] == dir
  }

  lemma JoinIsUnder(dir: Path, segment: string)
    ensures Under(Join(dir, segment), dir)
  {
    if segment != "" {
      assert (dir + [segment])[..|dir|] == dir;
    }
  }

  lemma UnderTransitive(p: Path, q: Path, r: Path)
    requires Under(p, q) && Under(q, r)
    ensures Under(p, r)
  {
    assert p[..|r|] == p[..|q|][..|r|];
  }

  /** What remains of a set of files after `rimraf(dir)`. */
  function RemoveUnder(files: set<Path>, dir: Path): (rest: set<Path>)
    ensures rest <= files
    ensures forall p :: p in files ==> (p in rest <==> !Under(p, dir))
  {
    set p | p in files && !Under(p, dir)
  }
}

=== FILE: text.dfy ===
/** The JavaScript string operations the library relies on: `includes`, `split`, `trim`
    and the relational operator `<` on strings. */
module Text {

  predicate IsPrefix(p: string, s: string) {
    |p| <= |s| && s[..|p|] == p
  }

  // ---------------------------------------------------------------------------
  // s.includes(sub)
  // ---------------------------------------------------------------------------

  /** `s.includes(sub)`: `sub` occurs somewhere in `s`. */
  predicate Contains(s: string, sub: string)
    decreases |s|
  {
    IsPrefix(sub, s) || (|s| > 0 && Contains(s[1..], sub))
  }

  /** Every string that has `sub` written inside it contains `sub`. */
  lemma {:induction false} ContainsInfix(pre: string, sub: string, post: string)
    ensures Contains(pre + sub + post, sub)
    decreases |pre|
  {
    var s := pre + sub + post;
    if |pre| == 0 {
      assert s[..|sub|] == sub;
    } else {
      assert s[1..] == pre[1..] + sub + post;
      ContainsInfix(pre[1..], sub, post);
    }
  }

  /** Conversely, a string that contains `sub` can be cut around one occurrence of it. */
  lemma {:induction false} ContainsSplits(s: string, sub: string) returns (pre: string, post: string)
    requires Contains(s, sub)
    ensures s == pre + sub + post
    decreases |s|
  {
    if IsPrefix(sub, s) {
      pre, post := "", s[|sub|..];
      assert s == s[..|sub|] + s[|sub|..];
    } else {
      var pre', post' := ContainsSplits(s[1..], sub);
      pre, post := [s[0]] + pre', post';
      assert s == [s[0]] + s[1..];
    }
  }

  // ---------------------------------------------------------------------------
  // s.split(sep) for a one-character separator, and its inverse parts.join(sep)
  // ---------------------------------------------------------------------------

  /** `s.split(sep)`: the maximal separator-free pieces of `s`, in order. There is always
      at least one piece (`"".split(sep)` is `[""]`). */
  function Split(s: string, sep: char): (parts: seq<string>)
    ensures |parts| >= 1
    ensures forall i :: 0 <= i < |parts| ==> sep !in parts[i]
    decreases |s|
  {
    if |s| == 0 then [""]
    else
      var rest := Split(s[1..], sep);
      if s[0] == sep then [""] + rest
      else [[s[0]] + rest[0]] + rest[1..]
  }

  /** `parts.join(sep)` */
  function JoinWith(parts: seq<string>, sep: char): string
    requires |parts| >= 1
    decreases |parts|
  {
    if |parts| == 1 then parts[0] else parts[0] + [sep] + JoinWith(parts[1..], sep)
  }

  /** Joining the pieces back with the separator gives the original string. */
  lemma {:induction false} SplitThenJoin(s: string, sep: char)
    ensures JoinWith(Split(s, sep), sep) == s
    decreases |s|
  {
    if |s| > 0 {
      var rest := Split(s[1..], sep);
      SplitThenJoin(s[1..], sep);
      var parts := Split(s, sep);
      if s[0] == sep {
        assert parts[1..] == rest;
      } else if |rest| == 1 {
        assert parts == [[s[0]] + rest[0]];
      } else {
        assert parts[1..] == rest[1..];
        assert JoinWith(rest, sep) == rest[0] + [sep] + JoinWith(rest[1..], sep);
      }
    }
  }

  /** A string without the separator splits into itself alone. */
  lemma {:induction false} SplitSeparatorFree(s: string, sep: char)
    requires sep !in s
    ensures Split(s, sep) == [s]
    decreases |s|
  {
    if |s| > 0 {
      assert s[0] != sep && sep !in s[1..];
      SplitSeparatorFree(s[1..], sep);
      assert [s[0]] + s[1..] == s;
    }
  }

  /** Splitting `a + sep + b`, with `a` separator-free, yields `a` and then the pieces of `b`. */
  lemma {:induction false} SplitAfterFirstSeparator(a: string, sep: char, b: string)
    requires sep !in a
    ensures Split(a + [sep] + b, sep) == [a] + Split(b, sep)
    decreases |a|
  {
    var s := a + [sep] + b;
    if |a| == 0 {
      assert s[1..] == b;
    } else {
      assert s[1..] == a[1..] + [sep] + b;
      assert sep !in a[1..];
      SplitAfterFirstSeparator(a[1..], sep, b);
      assert [a[0]] + a[1..] == a;
    }
  }

  /** Splitting the join of separator-free pieces gives the pieces back. */
  lemma {:induction false} JoinThenSplit(parts: seq<string>, sep: char)
    requires |parts| >= 1
    requires forall i :: 0 <= i < |parts| ==> sep !in parts[i]
    ensures Split(JoinWith(parts, sep), sep) == parts
    decreases |parts|
  {
    if |parts| == 1 {
      SplitSeparatorFree(parts[0], sep);
    } else {
      JoinThenSplit(parts[1..], sep);
      SplitAfterFirstSeparator(parts[0], sep, JoinWith(parts[1..], sep));
      assert [parts[0]] + parts[1..] == parts;
    }
  }

  lemma {:induction false} JoinWithLast(parts: seq<string>, sep: char)
    requires |parts| >= 2
    ensures JoinWith(parts, sep) == JoinWith(parts[..|parts| - 1], sep) + [sep] + parts[|parts| - 1]
    decreases |parts|
  {
    if |parts| > 2 {
      JoinWithLast(parts[1..], sep);
      assert parts[1..][..|parts| - 2] == parts[..|parts| - 1][1..];
    }
  }

  /** `s.split(sep).slice(-1)`: the last piece, which is the text after the last
      separator, or all of `s` when it has none. */
  function LastPiece(s: string, sep: char): (r: string)
    ensures sep !in r
    ensures |r| <= |s| && s[|s| - |r|..] == r
    ensures |r| == |s| || s[|s| - |r| - 1] == sep
  {
    var parts := Split(s, sep);
    SplitThenJoin(s, sep);
    if |parts| >= 2 then
      JoinWithLast(parts, sep);
      parts[|parts| - 1]
    else
      parts[0]
  }

  /** Appending a separator and a separator-free tail adds exactly one last piece. */
  lemma {:induction false} SplitBeforeLastSeparator(a: string, sep: char, b: string)
    requires sep !in b
    ensures Split(a + [sep] + b, sep) == Split(a, sep) + [b]
    decreases |a|
  {
    var s := a + [sep] + b;
    if |a| == 0 {
      assert s[1..] == b;
      SplitSeparatorFree(b, sep);
    } else {
      assert s[1..] == a[1..] + [sep] + b;
      SplitBeforeLastSeparator(a[1..], sep, b);
    }
  }

  /** The last piece after an explicit separator is what follows it. */
  lemma LastPieceAfterSeparator(a: string, sep: char, b: string)
    requires sep !in b
    ensures LastPiece(a + [sep] + b, sep) == b
  {
    SplitBeforeLastSeparator(a, sep, b);
  }

  // ---------------------------------------------------------------------------
  // s.trim()
  // ---------------------------------------------------------------------------

  /** The characters ECMAScript classifies as WhiteSpace or LineTerminator. */
  predicate IsJsWhitespace(c: char) {
    || c == '\t' || c == '\n' || c == '\U{B}' || c == '\U{C}' || c == '\r' || c == ' '
    || c == '\U{A0}' || c == '\U{1680}' || ('\U{2000}' <= c <= '\U{200A}')
    || c == '\U{2028}' || c == '\U{2029}' || c == '\U{202F}' || c == '\U{205F}'
    || c == '\U{3000}' || c == '\U{FEFF}'
  }

  predicate AllWhitespace(s: string) {
    forall k :: 0 <= k < |s| ==> IsJsWhitespace(s[k])
  }

  /** `s.trimStart()`: the suffix of `s` that starts at its first non-whitespace character. */
  function TrimStart(s: string): (r: string)
    ensures |r| <= |s| && r == s[|s| - |r|..]
    ensures AllWhitespace(s[..|s| - |r|])
    ensures |r| == 0 || !IsJsWhitespace(r[0])
    decreases |s|
  {
    if |s| > 0 && IsJsWhitespace(s[0]) then TrimStart(s[1..]) else s
  }

  /** `s.trimEnd()`: the prefix of `s` that ends at its last non-whitespace character. */
  function TrimEnd(s: string): (r: string)
    ensures |r| <= |s| && r == s[..|r|]
    ensures AllWhitespace(s[|r|..])
    ensures |r| == 0 || !IsJsWhitespace(r[|r| - 1])
    decreases |s|
  {
    if |s| > 0 && IsJsWhitespace(s[|s| - 1]) then TrimEnd(s[..|s| - 1]) else s
  }

  /** `s.trim()` */
  function Trim(s: string): (r: string)
    ensures |r| == 0 || (!IsJsWhitespace(r[0]) && !IsJsWhitespace(r[|r| - 1]))
  {
    TrimEnd(TrimStart(s))
  }

  /** Trimming removes whitespace from the two ends and nothing else. */
  lemma TrimCutsWhitespace(s: string) returns (lead: string, trail: string)
    ensures s == lead + Trim(s) + trail
    ensures AllWhitespace(lead) && AllWhitespace(trail)
  {
    var t := TrimStart(s);
    var r := TrimEnd(t);
    var i := |s| - |t|;
    var j := i + |r|;
    assert t == s[i..];
    assert r == t[..|r|];
    assert r == s[i..j];
    lead := s[..i];
    trail := s[j..];
    assert trail == t[|r|..];
    SliceThree(s, i, j);
  }

  lemma SliceThree(s: string, i: nat, j: nat)
    requires i <= j <= |s|
    ensures s == s[..i] + s[i..j] + s[j..]
  {
  }

  /** A string trims to nothing exactly when it is all whitespace. */
  lemma TrimEmptyIffWhitespace(s: string)
    ensures Trim(s) == "" <==> AllWhitespace(s)
  {
    var lead, trail := TrimCutsWhitespace(s);
    if AllWhitespace(s) && Trim(s) != "" {
      assert false;
    }
    if Trim(s) == "" {
      assert s == lead + trail;
      forall k | 0 <= k < |s| ensures IsJsWhitespace(s[k]) {
        if k < |lead| { assert s[k] == lead[k]; } else { assert s[k] == trail[k - |lead|]; }
      }
    }
  }

  /** Trimming twice is trimming once. */
  lemma TrimIdempotent(s: string)
    ensures Trim(Trim(s)) == Trim(s)
  {
    var r := Trim(s);
    if |r| > 0 {
      assert TrimStart(r) == r;
      assert TrimEnd(r) == r;
    }
  }

  // ---------------------------------------------------------------------------
  // a < b on strings
  // ---------------------------------------------------------------------------

  /** JavaScript's `a < b` on strings: lexicographic by character code, a proper prefix
      coming first. (Dafny's own `<` on sequences means "proper prefix".) */
  predicate CodeUnitLess(a: string, b: string)
    decreases |a|
  {
    if |a| == 0 then |b| > 0
    else if |b| == 0 then false
    else if a[0] != b[0] then a[0] < b[0]
    else CodeUnitLess(a[1..], b[1..])
  }

  /** `a <= b` */
  predicate CodeUnitLessOrEqual(a: string, b: string) {
    a == b || CodeUnitLess(a, b)
  }

  lemma {:induction false} CodeUnitLessIrreflexive(a: string)
    ensures !CodeUnitLess(a, a)
    decreases |a|
  {
    if |a| > 0 {
      CodeUnitLessIrreflexive(a[1..]);
    }
  }

  lemma {:induction false} CodeUnitLessAsymmetric(a: string, b: string)
    ensures CodeUnitLess(a, b) ==> !CodeUnitLess(b, a)
    decreases |a|
  {
    if |a| > 0 && |b| > 0 && a[0] == b[0] {
      CodeUnitLessAsymmetric(a[1..], b[1..]);
    }
  }

  lemma {:induction false} CodeUnitLessTransitive(a: string, b: string, c: string)
    requires CodeUnitLess(a, b) && CodeUnitLess(b, c)
    ensures CodeUnitLess(a, c)
    decreases |a|
  {
    if |a| > 0 && a[0] == b[0] && b[0] == c[0] {
      CodeUnitLessTransitive(a[1..], b[1..], c[1..]);
    }
  }

  /** Any two different strings are ordered one way or the other. */
  lemma {:induction false} CodeUnitLessTotal(a: string, b: string)
    ensures a == b || CodeUnitLess(a, b) || CodeUnitLess(b, a)
    decreases |a|
  {
    if |a| > 0 && |b| > 0 && a[0] == b[0] {
      CodeUnitLessTotal(a[1..], b[1..]);
      if a[1..] == b[1..] {
        assert a == [a[0]] + a[1..] && b == [b[0]] + b[1..];
      }
    }
  }

  /** `!(a < b)` is `b <= a`, which is what lets an `else` branch be read as a range. */
  lemma NotLessIsAtLeast(a: string, b: string)
    ensures !CodeUnitLess(a, b) <==> CodeUnitLessOrEqual(b, a)
  {
    CodeUnitLessTotal(a, b);
    CodeUnitLessAsymmetric(b, a);
    CodeUnitLessIrreflexive(a);
  }
}
